=== FILE: README.md ===
# xfrelay service worker, modelled in Dafny

xfrelay is a browser extension that relays traffic between browser tabs and a
remote relay server. Its service worker (`src/service_worker/index.ts`) does
several jobs:
- it accepts connections from tabs and keeps a table of them by name (`sPorts`);
- it queues what the tabs send and encrypts each item under a shared AES key;
- it emits the result over a tunnel to the relay server;
- it answers the server's `requestSpecificData` and `injData` calls;
- it reconnects whenever the stored configuration changes.

The settings panel (`src/gui/App.tsx`) edits that configuration, and in
particular the hex-encoded key. The service worker decodes the key with
`hexToUint8Array` (`src/service_worker/utils.ts`).

This project models that core as pure functions and proves properties of them:

- `HexCodec` (`hex_codec.dfy`) covers `hexToUint8Array` and `uint8arrayToHex`.
  - The decoder includes what JavaScript's `parseInt(_, 16)` does with every
    two-character window. That includes non-hex text, because the service
    worker decodes whatever key the user saved.
  - It also includes the modulo-256 store into a `Uint8Array`, and
    `toString(16)` followed by `padStart(2, "0")`.
- `Gui` (`gui.dfy`) covers the Encryption Key field's `error` predicate, key
  generation, and the Save payload with its read-back.
- `Registry` (`registry.dfy`) models `sPorts`, a JavaScript `Map` kept in
  insertion order.
- `Address` (`address.dfy`) models `split("!")` of the relay address.
- `Envelope` (`envelope.dfy`) models the wire envelope: z85 of
  IV ‖ AES-CBC ciphertext, with a 16-byte IV. The cipher, z85, UTF-8, key
  import and the random source are uninterpreted fields of `Oracles`.
- `Coordinator` (`coordinator.dfy`) is the service worker itself.
  - There is one immutable `State`, one handler function per event, and
    `Step`/`Run` over event sequences.
  - `Step` uses the configuration change handler as written.
    `CorrectedStep` and `CorrectedRun` use the corrected handler (see
    Findings) and differ from `Step` only on `ConfigChanged`.
  - Every `await` of the drain and of the connect loop is a step boundary, so
    other events interleave there. The boundaries are `EncryptSettled`,
    `ConnectSettled`, `ImportSettled`, `BackoffElapsed`, `RegisterSettled`
    and `RegisterTabsSettled`.
  - The `await`s inside the other handlers finish within their event (see
    Left out).
  - What the service worker does to the outside world is appended to a log:
    storage writes, relay calls and emits, port posts, and uncaught
    exceptions.
- `QueueFacts`, `TabFacts`, `RelayFacts` and `LoopFacts` hold the
  properties:
  - the outbound queue's order and accounting over whole runs;
  - the tab table's invariant;
  - reply correlation and `injData` routing;
  - the connect loop, the configuration change handler, and one defect of
    that handler (see Findings).

The following behaviours of the source may be unexpected in a relay. The
model keeps each of them as written:
- The drain guard is checked only on entry.
- An item is taken off the queue before it is encrypted. A failed encryption
  leaves `isMessageQueueProcessing` set forever: the item is lost and the
  drain stops for good (`Drain.Stuck`).
- A failed inbound decryption is not caught. It rejects the `injData`
  handler's promise (`Threw(DecryptRejected)`), and the tab gets nothing.
- The set of tab names is not sent again on attach or detach.
  - Attaching a tab never calls `registerInputTab`.
  - A detach unregisters only its own name.
  - The full set is sent only by the connect loop, the keep-alive tick and
    the resume hook.
- A tab's `custom` reply is emitted twice:
  - once in plain text by the general handler;
  - once encrypted under the request's nonce by the correlation listener.
- Only `injData` falls back to a random tab, and it forwards the wire text
  undecrypted. `requestSpecificData` for an unknown tab does nothing.
- The abort flag is not looked at again after `connect` succeeds. A loop
  whose connection was closed during `importKey` still creates a client and
  registers on it.
- A retry loop for a superseded address can keep running next to the new
  one (see Findings).

## Model

| member | source | states |
|---|---|---|
| HexCodec.HexToBytes | src/service_worker/utils.ts:1-8 | decoding fails ("Invalid hex string") exactly when the length is odd; otherwise the array has half as many bytes as the text has characters |
| HexCodec.HexToBytesOfHex | src/service_worker/utils.ts:4-6 | on hex digits, byte k is the two-digit base-16 value of characters 2k and 2k+1 |
| HexCodec.HexToBytesIgnoresCase | src/service_worker/utils.ts:4-6 | two spellings of the same digits that differ only in case decode to the same bytes |
| HexCodec.ParsePairOfDigits | src/service_worker/utils.ts:5 | `parseInt` of two hex digits, stored in a byte, is 16 times the first digit's value plus the second's |
| HexCodec.DigitThenNonDigit | src/service_worker/utils.ts:5 | the decoder is lenient: a digit followed by a non-digit decodes to the digit's value (`"1g"` gives 1) |
| HexCodec.NoDigitIsZero | src/service_worker/utils.ts:5 | a pair with no leading digit, sign or white space is `NaN`, stored as byte 0 |
| HexCodec.MinusSignWraps | src/service_worker/utils.ts:5 | a minus sign negates the digit and the store wraps modulo 256 (`"-1"` gives 255) |
| HexCodec.ByteToHex | src/service_worker/utils.ts:13 | each byte prints as exactly two lowercase digits, high nibble first |
| HexCodec.BytesToHex | src/service_worker/utils.ts:10-16 | the encoding has 2n characters, all lowercase hex, with byte k at positions 2k and 2k+1 |
| HexCodec.DecodeEncode | src/service_worker/utils.ts:1-16 | decoding the encoding of any byte sequence gives the bytes back |
| HexCodec.EncodeDecode | src/service_worker/utils.ts:1-16 | an even-length hex string decodes, and re-encoding gives the string lowercased |
| Gui.KeyFieldInvalid | src/gui/App.tsx:140 | the field is flagged for every odd-length key; an unflagged key is 64 hex digits |
| Gui.KeyFieldInvalidIffNotEncoding | src/gui/App.tsx:140 | the field is unflagged exactly when the text is the hex spelling, in either case, of 32 bytes |
| Gui.AcceptedKeyDecodes | src/gui/App.tsx:140 | a key the field accepts decodes to 32 bytes whose encoding is the key lowercased |
| Gui.GenerateKey | src/gui/App.tsx:147-149 | a generated key has 64 lowercase hex digits, is never flagged, and decodes back to the 32 random bytes |
| Gui.JoinHexIsBytesToHex | src/gui/App.tsx:147-149 | the panel's map-and-join formatting is the service worker's `uint8arrayToHex` |
| Gui.Load | src/gui/App.tsx:30-35 | with no stored record the form shows mode 1 and empty texts; with one, saving the loaded form gives back that record; the peer ID and key-visibility toggle are kept |
| Gui.Save | src/gui/App.tsx:176-185 | the stored record carries the four form fields unchanged |
| Gui.LoadSave | src/gui/App.tsx:176-185 | Save stores the four form fields with no validity gate: reading the record back restores the form, flagged key included |
| Registry.Put | src/service_worker/index.ts:48 | `sPorts.set` maps the name to the new port, keeps every other name's port and the key order, and keeps names unique |
| Registry.Remove | src/service_worker/index.ts:60 | `sPorts.delete` unmaps exactly that name, keeps every other name's port, and leaves the remaining entries a subsequence of the table, in their original order |
| Registry.RemoveKeepsOthers | src/service_worker/index.ts:60 | an entry survives `delete` exactly when it was there and has another name |
| Registry.RemoveKeepsOrder | src/service_worker/index.ts:60 | any two surviving entries appear in the table in the same order |
| Registry.PutRemoveAreMapOperations | src/service_worker/index.ts:48-60 | read as a map, set and delete are map update and key removal |
| Registry.SizeIsNameCount | src/service_worker/index.ts:53 | `sPorts.size` is the number of distinct registered names |
| Address.Split | src/service_worker/index.ts:109-112 | the parts of `split("!")` contain no `!`, join back to the address, and number one more than its `!` characters |
| Address.UrlAndHash | src/service_worker/index.ts:109-112 | the URL is the text before the first `!` (all of it without one); the hash is the text up to the next `!`, or `""` without one |
| Envelope.UnpackPack | src/service_worker/index.ts:174-176 | slicing the first 16 bytes as IV undoes the IV ‖ ciphertext packing of line 34 |
| Envelope.OpenSeal | src/service_worker/index.ts:174-183 | under the libraries' own round-trip laws, decrypting a z85 token sealed under the same key gives the plaintext back |
| Coordinator.ProcessQueue | src/service_worker/index.ts:19-27 | nothing happens without a key or a client, or while a drain runs; otherwise the head is taken off and its encryption begins; nothing is lost or added |
| Coordinator.OnEncryptSettled | src/service_worker/index.ts:29-40 | a sealed item is emitted as `("data", id, token)`; a rejection or a vanished client leaves the drain stuck with the item lost and logs that one throw; a drain that ends normally leaves the queue empty |
| Coordinator.OnConnect | src/service_worker/index.ts:43-57 | `"GUI"` changes nothing; any other name is bound to the new port, other names are kept, and one status write is logged, with no `registerInputTab` |
| Coordinator.OnDisconnect | src/service_worker/index.ts:58-70 | the port's name is unbound, other names are kept, and `unregisterInputTab(name)` is called exactly when there is a client |
| Coordinator.OnPortMessage | src/service_worker/index.ts:72-86 | a `data` message grows the accounted items by exactly that item, and no other message changes them; a `custom` one is first emitted as `specificData(qos, data)`; matching listeners are removed |
| Coordinator.Correlate | src/service_worker/index.ts:142-165 | the fired listeners are exactly the matching ones; each emits one reply with a fresh IV, in installation order; the rest stay installed |
| Coordinator.OnRequestSpecificData | src/service_worker/index.ts:131-167 | an unknown tab gets nothing; a known one gets `{custom, qos, data}` and one listener for its port, qos and nonce |
| Coordinator.OnInjData | src/service_worker/index.ts:169-203 | a known tab gets the decryption or the handler throws; an unknown tab gets nothing; a falsy ID sends the raw data to the picked port, if any |
| Coordinator.OnResumeFailed | src/service_worker/index.ts:213-222 | the new session becomes `connection` and inherits every pending hook; each hook in turn calls `registerInput` with the stored account and then `registerInputTab` with the current names, or throws without a client |
| Coordinator.OnKeepAlive | src/service_worker/index.ts:265-268 | with a client, the tick logs one `registerInputTab` of the current names; without one, it does nothing |
| Coordinator.OnInitialConfig | src/service_worker/index.ts:226-235 | a stored config with address, account and key starts a loop under `haltLoop`; any other leaves the state unchanged |
| Coordinator.OnConnectSettled | src/service_worker/index.ts:107-123 | a failure moves the loop to its backoff; a success sets `connection` and awaits `importKey` with the decoded key, or ends the loop when the key does not decode |
| Coordinator.OnImportSettled | src/service_worker/index.ts:123-125 | a rejected import ends the loop; otherwise the key is installed, a client is created and `registerInput(accountID)` is called |
| Coordinator.OnBackoffElapsed | src/service_worker/index.ts:96-119 | after the backoff an aborted loop returns silently, and any other writes a status and calls `connect` again |
| Coordinator.OnRegisterSettled | src/service_worker/index.ts:125-129 | `registerInput` answering false throws before `registerInputTab`; true calls `registerInputTab` with the current names on the current client, or throws and ends the loop when the client is gone |
| Coordinator.OnRegisterTabsSettled | src/service_worker/index.ts:129-222 | the loop ends; on success the client's handlers are installed |
| Coordinator.ReimportKey | src/service_worker/index.ts:240 | a removed config throws; an odd-length key throws "Invalid hex string"; otherwise the key is whatever `importKey` makes of the decoded bytes, or the rejection |
| Coordinator.Teardown | src/service_worker/index.ts:243-251 | without a connection the controller is aborted; with one, the connection is closed and the client and its handlers are dropped |
| Coordinator.Restart | src/service_worker/index.ts:252-260 | a fresh controller is always made; for a complete config a loop starts under it, in the connecting phase, with one status write and one `connect` call to the config's URL and hash; otherwise nothing else changes |
| QueueFacts.EmittedIsPrefixOfSent | src/service_worker/index.ts:19-41 | from startup, the data emitted is a prefix of the data tabs sent: in order, none twice, none invented; emitted, then in flight, then queued, is everything sent; the prefix property holds with either change handler |
| QueueFacts.StepAccounts | src/service_worker/index.ts:24-39 | each event only appends what it enqueues to emitted ‖ in flight ‖ queued |
| QueueFacts.RunAccounts | src/service_worker/index.ts:24-39 | over a run, emitted ‖ in flight ‖ queued grows by exactly what the run enqueued |
| QueueFacts.StuckForever | src/service_worker/index.ts:22-40 | a drain that threw stays stuck through every later event, and nothing more is emitted |
| QueueFacts.MessageDuringDrain | src/service_worker/index.ts:20-22 | a message that arrives during an encryption joins the queue and starts nothing |
| QueueFacts.OnlyPortMessagesStartDrain | src/service_worker/index.ts:85 | only a tab's message starts a drain, and only when key and client are present |
| QueueFacts.EmittedTokenOpens | src/service_worker/index.ts:25-38 | the emitted token carries the item's id and opens, under the same key, to the item's data |
| TabFacts.ValidAlways | src/service_worker/index.ts:43-88 | in every reachable state, with either change handler, each registered name leads to a live port carrying it, names are unique, and `"GUI"` is never registered |
| TabFacts.StepKeepsValid | src/service_worker/index.ts:43-88 | every event keeps that invariant, with either change handler |
| TabFacts.StatusCountsRegisteredNames | src/service_worker/index.ts:50-56 | the status written on attach or detach counts the registered names |
| TabFacts.ReservedNameNeverRegistered | src/service_worker/index.ts:45-48 | no event registers `"GUI"` |
| TabFacts.DetachUnregistersWithClient | src/service_worker/index.ts:61 | every detaching port's name is unregistered whenever there is a client |
| TabFacts.OlderPortDetachDropsNewer | src/service_worker/index.ts:58-61 | the older port's disconnect unregisters a newer live port of the same name |
| TabFacts.ReattachTakesOverName | src/service_worker/index.ts:48 | reattaching a name hands it to the new port and keeps its place in `sPorts.keys()` |
| TabFacts.RequestReachesNamedTab | src/service_worker/index.ts:134-165 | a request for a registered name posts to the live port carrying that name and listens there |
| RelayFacts.FiresIffMatches | src/service_worker/index.ts:147 | a listener fires exactly on a `custom` message from its port with its qos |
| RelayFacts.NothingFiresTwice | src/service_worker/index.ts:147-148 | after a message fired its listeners, nothing left fires on it |
| RelayFacts.RepliesOnce | src/service_worker/index.ts:147-148 | the same reply seen again produces no second reply |
| RelayFacts.OnlyCustomRepliesCorrelate | src/service_worker/index.ts:147 | messages of any type but `custom`, and messages from other ports, leave every listener installed |
| RelayFacts.ReplySeenTwice | src/service_worker/index.ts:80-161 | a tab's reply is emitted in plain text as `specificData(qos, data)` and then encrypted under the request's nonce |
| RelayFacts.ReplyTokenOpens | src/service_worker/index.ts:150-161 | the reply carries the request's nonce and a token that opens to the reply |
| RelayFacts.InjDataDeliversPlaintext | src/service_worker/index.ts:170-190 | `injData` to a registered tab posts exactly the plaintext the server sealed under the shared key |
| RelayFacts.InjDataToUnknownTabIsDropped | src/service_worker/index.ts:171-172 | `injData` to an unregistered name changes nothing |
| RelayFacts.FallbackForwardsUndecrypted | src/service_worker/index.ts:192-201 | without a tab ID the wire text is posted as it came, whatever the key |
| RelayFacts.DetachedClientIgnored | src/service_worker/index.ts:247-249 | a client whose handlers were removed ignores the server's calls |
| RelayFacts.ResumeRegistersAgain | src/service_worker/index.ts:213-222 | a failed resume makes the new session current, moves its hooks to it and registers the tab names again |
| LoopFacts.FailedConnectRetries | src/service_worker/index.ts:96-119 | a failed connect is swallowed; after the backoff the same address is dialled again |
| LoopFacts.AbortedLoopStops | src/service_worker/index.ts:97 | a loop aborted during its backoff returns silently |
| LoopFacts.AbortNotCheckedAfterConnect | src/service_worker/index.ts:97-115 | an in-flight connect that succeeds takes over `connection` even if its controller was aborted |
| LoopFacts.ImportOutlivesTeardown | src/service_worker/index.ts:122-125 | an address change that closes the connection during `importKey` does not stop the loop; the import still creates a client and registers the account, with either handler |
| LoopFacts.RegisterRefusedSkipsTabs | src/service_worker/index.ts:125-129 | `registerInput` answering false ends the loop with an error and no `registerInputTab` |
| LoopFacts.ConnectTargetsAddress | src/service_worker/index.ts:108-114 | `connect` is called with the text before the first `!` as URL, and the address itself with an empty hash when it has no `!` |
| LoopFacts.IncompleteConfigDoesNotConnect | src/service_worker/index.ts:227-232 | a stored config missing address, account or key starts nothing |
| LoopFacts.UnrelatedChangeIgnored | src/service_worker/index.ts:238-242 | a change to neither key nor address does nothing, in both handlers |
| LoopFacts.KeyFailureStopsHandler | src/service_worker/index.ts:239-240 | a changed key that fails to decode or import throws before the address is looked at |
| LoopFacts.SavedKeyInvalidHexIffOdd | src/service_worker/index.ts:239-240 | with either handler, saving a changed key throws "Invalid hex string" exactly when its length is odd, and then nothing else happens; every such key is one the panel flags |
| LoopFacts.KeyChangeImports | src/service_worker/index.ts:239-240 | a changed key that imports becomes the current key |
| LoopFacts.KeyOnlyChange | src/service_worker/index.ts:239-242 | a key-only change replaces the key in place, with no teardown and no new controller |
| LoopFacts.UnchangedKeyKept | src/service_worker/index.ts:239 | with either handler, an unchanged key is not re-imported, and the handler throws nothing |
| LoopFacts.ImportedChangeThrowsNothing | src/service_worker/index.ts:242-260 | with either handler, once the key is settled the handler appends only connection closes, status writes and `connect` calls, so it throws nothing |
| LoopFacts.AddressChangeWithoutConnection | src/service_worker/index.ts:242-260 | with no connection, an address change aborts the pending loop, makes a new controller and, for a complete config, dials the new address under it |
| LoopFacts.AddressChangeWithConnectionAsWritten | src/service_worker/index.ts:245-252 | with a connection, an address change closes it and drops the client, but aborts no controller |
| LoopFacts.CorrectionOnlyAborts | src/service_worker/index.ts:243-252 | the corrected handler differs from the one as written only in also aborting the old controller when a connection exists |
| LoopFacts.ControlledAlways | src/service_worker/index.ts:90-263 | in every state `CorrectedRun` reaches, every suspended loop runs under the current controller or an aborted one |
| LoopFacts.OnlyCurrentLoopReconnects | src/service_worker/index.ts:97 | hence only the current controller's loop dials again after a backoff |
| LoopFacts.StaleSettingReachable | src/service_worker/index.ts:226-263 | from startup, a connection followed by an address change and a failed connect reaches the stale setting, with either handler |
| LoopFacts.StaleLoopSurvivesAsWritten | src/service_worker/index.ts:243-251 | as written, a second address change there leaves the superseded loop alive, which dials its old address |
| LoopFacts.StaleLoopStopsCorrected | src/service_worker/index.ts:243-252 | corrected, the same change stops the superseded loop without a `connect` call |

## Left out

- Cryptography, z85, UTF-8, `importKey` and `crypto.getRandomValues` are uninterpreted oracles. Their round-trip laws are assumed only where a lemma states them (`LawsAt`).
- `Math.random()` values appear only as parameters: the `qos` of `requestSpecificData`, and `pick` for the fallback port of `injData`. A `pick` outside the table posts nothing.
- Timers are left out. The 15-second backoff and the 15-second keep-alive interval are the `BackoffElapsed` and `KeepAlive` events, with no durations.
- The transport's `connection.connected` flag is not modelled. The status record's `connected` is whether `connection` is set.
- Some `await`s are treated as finishing inside their event, with no interleaving:
  - `importKey` in the config handler;
  - the encryption in a correlation listener;
  - the decryption in `injData` (lines 177-181). The key and the data are read before the `await`, so only the timing of the post is lost: a detach in between is not modelled;
  - the storage read in `updateResume`, and its `await`s between `registerInput` and `registerInputTab`.
- Some relay call results are not modelled:
  - a rejected `registerInput` in the loop. Only its `false` answer is modelled; a rejected `registerInputTab` there is `RegisterTabsRejected`;
  - any result of the `registerInput`, `registerInputTab` and `unregisterInputTab` calls made on detach, by the keep-alive tick and by the resume hook.
- A missing config field and an empty one are treated alike. Both are falsy in the completeness tests.
- `activeFCAInstance` is always 0 and is not logged. Console logging is left out.
- Strings are sequences of Unicode scalar values, not of UTF-16 code units. The tab ID test `if (tabID)` is modelled for strings only.
- HexCodec.HexToBytes: for a key with a character outside the Basic Multilingual Plane, length and positions count that character once, where JavaScript counts two code units. `"\u{1F600}"` fails here for odd length but decodes to `[0]` in JavaScript.
- Attachment framing does not appear in the code and is not modelled.
- src/browser_main/index.ts and src/browser_relay/index.ts are not part of this model. They are DOM event plumbing.
- Coordinator.OnConfigChangedAsWritten: its contract states only that tabs and the queue are untouched. What it does is stated by the LoopFacts lemmas about it.
- Coordinator.OnConfigChanged: same as above. It is the corrected handler that `CorrectedStep` uses; `Step` uses `OnConfigChangedAsWritten`.
- RelayFacts.ReplySeenTwice: stated for a state with an empty queue and one listener, so that the two emitted actions sit at fixed log positions.
- Coordinator.OnRegisterTabsSettled: its contract does not state the status write and the `resumeFailed` hook. `FirstLoopRun` and the resume lemmas use those.

## Findings

| source | as written | input that shows it | evidently intended | confidence | as-written member | corrected member |
|---|---|---|---|---|---|---|
| src/service_worker/index.ts:243-251 | an address change aborts `haltLoop` only when `connection` is null, but `connection` is never cleared after a connection closes | startup with a complete config, connect, register, change the address (loop 5 starts), loop 5's connect fails, change the address again: loop 5 is not aborted and later dials the old address (`LoopFacts.StaleSettingReachable`) | every address change stops the previous connect loop, so no stale retry loop races with the new one | not executed | LoopFacts.StaleLoopSurvivesAsWritten | LoopFacts.StaleLoopStopsCorrected |

=== FILE: address.dfy ===
/**
  How `connectWithConfig` reads the relay address: `address.split("!")`, the
  first part is the server URL and the second part the expected public-key
  hash (`""` when there is no second part).
*/
module Address {

  const Bang := '!'

  /** `s.split(sep)` for a one-character separator; the empty string splits into `[""]`. */
  function Split(s: string, sep: char): (parts: seq<string>)
    ensures |parts| >= 1
    ensures forall i :: 0 <= i < |parts| ==> sep !in parts[i]
    ensures JoinWith(parts, sep) == s
    ensures |parts| == 1 + Count(s, sep)
  {
    if |s| == 0 then [""]
    else
      var rest := Split(s[1..], sep);
      assert s == [s[0]] + s[1..];
      if s[0] == sep then [""] + rest
      else
        var parts := [[s[0]] + rest[0]] + rest[1..];
        assert parts[1..] == rest[1..];
        parts
  }

  /** The inverse of `Split`: glue the parts back together with the separator. */
  function JoinWith(parts: seq<string>, sep: char): string
    requires |parts| >= 1
  {
    if |parts| == 1 then parts[0] else parts[0] + [sep] + JoinWith(parts[1..], sep)
  }

  function Count(s: string, c: char): nat {
    if |s| == 0 then 0 else (if s[0] == c then 1 else 0) + Count(s[1..], c)
  }

  /** The text before the first `c`, or all of `s` when there is none. */
  function TakeUntil(s: string, c: char): (r: string)
    ensures |r| <= |s| && r == s[..|r|] && c !in r
    ensures |r| < |s| ==> s[|r|] == c
  {
    if |s| == 0 || s[0] == c then "" else [s[0]] + TakeUntil(s[1..], c)
  }

  /** `(address ?? "").split("!")[0]`: the server URL. */
  function Url(address: string): string {
    Split(address, Bang)[0]
  }

  /** `address?.split("!")[1] ?? ""`: the public-key hash. */
  function Hash(address: string): string {
    var parts := Split(address, Bang);
    if |parts| > 1 then parts[1] else ""
  }

  /** The first part of a split is the text before the first separator. */
  lemma {:induction false} SplitHeadIsPrefix(s: string, sep: char)
    ensures Split(s, sep)[0] == TakeUntil(s, sep)
    ensures sep in s <==> |Split(s, sep)| > 1
    ensures |Split(s, sep)| > 1 ==> Split(s, sep)[1..] == Split(s[|TakeUntil(s, sep)| + 1..], sep)
    decreases |s|
  {
    if |s| > 0 {
      SplitHeadIsPrefix(s[1..], sep);
      if s[0] == sep {
        SplitAtSeparator(s, sep);
      } else {
        SplitPastOther(s, sep);
      }
    }
  }

  /** A leading separator ends the first part at once. */
  lemma SplitAtSeparator(s: string, sep: char)
    requires |s| > 0 && s[0] == sep
    ensures Split(s, sep) == [""] + Split(s[1..], sep) && TakeUntil(s, sep) == ""
    ensures s[|TakeUntil(s, sep)| + 1..] == s[1..] && sep in s
  {
  }

  /** A leading non-separator joins the first part and moves nothing else. */
  lemma SplitPastOther(s: string, sep: char)
    requires |s| > 0 && s[0] != sep
    ensures Split(s, sep)[0] == [s[0]] + Split(s[1..], sep)[0] && Split(s, sep)[1..] == Split(s[1..], sep)[1..]
    ensures TakeUntil(s, sep) == [s[0]] + TakeUntil(s[1..], sep)
    ensures sep in s <==> sep in s[1..]
    ensures sep in s ==> s[|TakeUntil(s, sep)| + 1..] == s[1..][|TakeUntil(s[1..], sep)| + 1..]
  {
    assert s == [s[0]] + s[1..];
    var rest := Split(s[1..], sep);
    assert Split(s, sep) == [[s[0]] + rest[0]] + rest[1..];
  }

  /**
    The URL is the text before the first `!` (all of it when there is none);
    the hash is the text between the first and second `!` (to the end when
    there is no second), or `""` when there is no `!` at all.
  */
  lemma UrlAndHash(address: string)
    ensures Url(address) == TakeUntil(address, Bang)
    ensures Bang !in address ==> Url(address) == address && Hash(address) == ""
    ensures Bang in address ==>
      var rest := address[|Url(address)| + 1..];
      address == Url(address) + [Bang] + rest && Hash(address) == TakeUntil(rest, Bang)
  {
    SplitHeadIsPrefix(address, Bang);
    var u := TakeUntil(address, Bang);
    if Bang in address {
      var rest := address[|u| + 1..];
      assert address == u + [Bang] + rest;
      SplitHeadIsPrefix(rest, Bang);
    } else {
      assert |u| == |address|;
    }
  }
}

=== FILE: base.dfy ===
/** Small shared vocabulary: optional values, results with an error channel, and bytes. */
module Base {

  /** A value that may be absent (`null`/`undefined` in the service worker). */
  datatype Option<+T> = None | Some(value: T)

  /** The outcome of an operation that may throw. */
  datatype Result<+T, +E> = Success(value: T) | Failure(error: E)

  /** One element of a `Uint8Array`. */
  type Byte = b: int | 0 <= b < 256
}

=== FILE: coordinator.dfy ===
/**
  The service-worker coordinator of `src/service_worker/index.ts`, as an
  event-driven state machine over one immutable state record.

  Every handler of the source is a function from the state (and the event's
  inputs) to the next state. A handler that `await`s is cut at the `await`:
  the part before it runs in the event that starts it, the part after it
  runs in a later event (`EncryptSettled`, `ConnectSettled`, `ImportSettled`,
  `BackoffElapsed`, `RegisterSettled`, `RegisterTabsSettled`), so any other
  event may run in between. The `await`s that stay inside their event are
  listed in the README. What the service worker sends to the outside world (storage
  writes, calls and emits on the relay client, messages posted to ports,
  uncaught exceptions) is appended to `log`.
*/
module Coordinator {
  import opened Base
  import opened HexCodec
  import opened Envelope
  import opened Gui
  import Address
  import Registry

  type TabName = string
  type PortId = Registry.PortId

  /** A `Math.random()` value minted as a correlation token. */
  datatype Qos = Qos(value: real)

  /** The relay server's opaque `nonce` of `requestSpecificData`. */
  datatype Nonce = Nonce(id: nat)

  /** The relay server's opaque `qos` of `injData`. */
  datatype RemoteQos = RemoteQos(id: nat)

  /**
    What a tab posts to the service worker. `OtherMsg` is a message of any
    other `type` (or no object at all); its `data` is never read.
  */
  datatype TabMessage = DataMsg(data: string) | CustomMsg(qos: Option<Qos>, data: string) | OtherMsg(data: string)

  /** What the service worker posts to a tab. */
  datatype PostedMessage = CustomOut(qos: Qos, data: string) | DataOut(remote: RemoteQos, data: string)

  /** One `[id, data]` element of `messageQueue`. */
  datatype Item = Item(id: TabName, data: string)

  /**
    The drain of `processMessageQueue`. `isMessageQueueProcessing` is
    `!drain.Idle?`. `Encrypting` holds the item already shifted off the queue
    and the IV and key its encryption was started with. `Stuck` is a drain
    whose encryption or emit threw: the flag stays set and the item is gone.
  */
  datatype Drain = Idle | Encrypting(item: Item, iv: seq<Byte>, key: Option<Key>) | Stuck(lost: Item)

  /** A `handleReturnMessage` listener installed on a port for one `requestSpecificData`. */
  datatype Listener = Listener(port: PortId, qos: Qos, nonce: Nonce)

  /**
    Where a running `connectWithConfig` is suspended. `Importing` holds the
    key bytes that `importKey` was called with.
  */
  datatype Phase = Connecting | BackingOff | Importing(raw: seq<Byte>) | Registering | RegisteringTabs

  /** A running `connectWithConfig(config, controller)`. */
  datatype Loop = Loop(config: Config, ctrl: nat, phase: Phase)

  /** Why a handler threw. */
  datatype Fault =
    | InvalidHex            // hexToUint8Array: "Invalid hex string"
    | ImportRejected        // importKey rejected the key bytes
    | EncryptRejected       // encrypt rejected (or there was no key)
    | DecryptRejected       // z85 decoding or decrypt failed (or there was no key)
    | NullClient            // `dt` was null where the code dereferences it
    | NullConnection        // `connection` was null where the code dereferences it
    | NullConfig            // the new config was removed from storage
    | RegisterInputFalse    // "Failed to register input"
    | RegisterTabsRejected  // registerInputTab rejected

  datatype Action =
    | StatusWrite(activeTab: nat, connected: bool)             // chrome.storage.session.set({status})
    | ConnectCall(loop: nat, url: string, hash: string)       // connect({url, publicKey: {hash}})
    | CloseConnection(conn: nat)                              // connection.close()
    | RegisterInput(accountID: Option<string>)                // dt.p.registerInput
    | RegisterInputTab(names: seq<TabName>)                   // dt.p.registerInputTab
    | UnregisterInputTab(name: TabName)                       // dt.p.unregisterInputTab
    | EmitData(id: TabName, token: string, plain: string)     // dt.emit("data", id, token); `plain` is what `token` encrypts
    | EmitSpecificData(qos: Option<Qos>, data: string)        // dt.emit("specificData", qos, data)
    | EmitSpecificReply(nonce: Nonce, token: string, plain: string) // dt.emit("specificData", nonce, token)
    | Post(port: PortId, msg: PostedMessage)                  // port.postMessage
    | Threw(fault: Fault)                                     // an uncaught exception or rejection

  /**
    The service worker's module state. Ports, connections, relay clients,
    abort controllers and connect loops are named by numbers drawn from `next`;
    `draws` counts the calls to `crypto.getRandomValues`.
  */
  datatype State = State(
    ports: map<PortId, TabName>,     // live non-GUI ports (those with listeners) and their names
    sPorts: Registry.Table,          // sPorts
    queue: seq<Item>,                // messageQueue
    drain: Drain,                    // isMessageQueueProcessing and the suspended drain
    key: Option<Key>,                // currentEncryptionKey
    connection: Option<nat>,         // connection
    dt: Option<nat>,                 // dt
    listening: set<nat>,             // relay clients carrying the requestSpecificData/injData handlers
    resumeHooks: multiset<nat>,      // connections with a pending once("resumeFailed", updateResume)
    haltLoop: nat,                   // haltLoop
    aborted: set<nat>,               // aborted controllers
    loops: map<nat, Loop>,           // suspended connectWithConfig calls
    listeners: seq<Listener>,        // handleReturnMessage listeners, in installation order
    next: nat,
    draws: nat,
    log: seq<Action>)

  /** The state when the service worker starts: nothing attached, no key, no connection. */
  function Init(): State {
    State(map[], [], [], Idle, None, None, None, {}, multiset{}, 0, {}, map[], [], 1, 0, [])
  }

  const ReservedName: TabName := "GUI"

  function Log(s: State, a: Action): State {
    s.(log := s.log + [a])
  }

  function Names(s: State): seq<TabName> {
    Registry.Names(s.sPorts)
  }

  /** A step that leaves the live ports and the tab registry alone and never lowers the fresh-id counter. */
  predicate TabsKept(s: State, r: State) {
    r.ports == s.ports && r.sPorts == s.sPorts && r.next >= s.next
  }

  /** A step that leaves the connect loops and their controllers alone. */
  predicate LoopsKept(s: State, r: State) {
    r.haltLoop == s.haltLoop && r.aborted == s.aborted && r.loops == s.loops
  }

  /** The status record every status write carries: `activeTab: sPorts.size`. */
  function WriteStatus(s: State): (r: State)
    ensures Registry.Distinct(s.sPorts) ==>
      r.log == s.log + [StatusWrite(|Registry.NameSet(s.sPorts)|, s.connection.Some?)]
  {
    var r := Log(s, StatusWrite(|s.sPorts|, s.connection.Some?));
    if Registry.Distinct(s.sPorts) then Registry.SizeIsNameCount(s.sPorts); r else r
  }

  // ---------------------------------------------------------------------------
  // The outbound queue (lines 19-41)
  // ---------------------------------------------------------------------------

  /** The items the log shows as emitted with `"data"`, in order. */
  function DataSent(log: seq<Action>): seq<Item> {
    if |log| == 0 then []
    else (if log[0].EmitData? then [Item(log[0].id, log[0].plain)] else []) + DataSent(log[1..])
  }

  /** Reading the emitted data off a log distributes over appending to the log. */
  lemma {:induction false} DataSentConcat(a: seq<Action>, b: seq<Action>)
    ensures DataSent(a + b) == DataSent(a) + DataSent(b)
    decreases |a|
  {
    if |a| > 0 {
      assert (a + b)[1..] == a[1..] + b;
      DataSentConcat(a[1..], b);
    } else {
      assert a + b == b;
    }
  }

  lemma DataSentOne(a: Action)
    ensures DataSent([a]) == if a.EmitData? then [Item(a.id, a.plain)] else []
  {
  }

  /** The item a drain has taken off the queue but not emitted. */
  function InFlight(d: Drain): seq<Item> {
    match d
    case Idle => []
    case Encrypting(item, _, _) => [item]
    case Stuck(item) => [item]
  }

  /** Every item that ever entered the queue: emitted, then taken, then still waiting. */
  function Accounted(s: State): seq<Item> {
    DataSent(s.log) + InFlight(s.drain) + s.queue
  }

  /** A step that leaves the queue, the drain and the emitted data alone, and only appends to the log. */
  predicate QueueUntouched(s: State, r: State) {
    r.queue == s.queue && r.drain == s.drain && DataSent(r.log) == DataSent(s.log) && s.log <= r.log
  }

  lemma {:induction false} DataSentAppend(log: seq<Action>, more: seq<Action>)
    requires forall i :: 0 <= i < |more| ==> !more[i].EmitData?
    ensures DataSent(log + more) == DataSent(log)
    decreases |more|
  {
    DataSentConcat(log, more);
    NoDataSent(more);
  }

  lemma {:induction false} NoDataSent(more: seq<Action>)
    requires forall i :: 0 <= i < |more| ==> !more[i].EmitData?
    ensures DataSent(more) == []
    decreases |more|
  {
    if |more| > 0 {
      NoDataSent(more[1..]);
    }
  }

  /** The `while` test, then the loop body up to its `await`: shift the head and start encrypting it. */
  function NextItem(o: Oracles, s: State): (r: State)
    ensures LoopsKept(s, r)
    ensures TabsKept(s, r)
    ensures r.drain.Idle? <==> |s.queue| == 0
    ensures InFlight(r.drain) + r.queue == s.queue
    ensures r.drain.Encrypting? ==> r.drain.item == s.queue[0] && r.drain.key == s.key
    ensures r.log == s.log && r.listeners == s.listeners && r.key == s.key && r.dt == s.dt
  {
    if |s.queue| == 0 then s.(drain := Idle)
    else s.(queue := s.queue[1..], drain := Encrypting(s.queue[0], o.iv(s.draws), s.key), draws := s.draws + 1)
  }

  /**
    `processMessageQueue()` up to its first `await`: nothing happens without a
    key, without a client, or while a drain is running; otherwise the head of
    the queue is taken and its encryption started.
  */
  function ProcessQueue(o: Oracles, s: State): (r: State)
    ensures LoopsKept(s, r)
    ensures TabsKept(s, r)
    ensures s.key.None? || s.dt.None? || !s.drain.Idle? ==> r == s
    ensures s.drain.Idle? ==> InFlight(r.drain) + r.queue == s.queue
    ensures s.key.Some? && s.dt.Some? && s.drain.Idle? && |s.queue| > 0 ==> r.drain.Encrypting? && r.drain.item == s.queue[0]
    ensures r.log == s.log && r.listeners == s.listeners
    ensures Accounted(r) == Accounted(s)
  {
    if s.key.None? || s.dt.None? then s
    else if !s.drain.Idle? then s
    else
      var r := NextItem(o, s);
      assert InFlight(s.drain) == [];
      r
  }

  /**
    The drain resumes after `await encrypt`: pack IV and ciphertext, z85 them,
    emit `("data", id, token)` on the current client, then test the loop
    again. A rejected encryption, or a client that went away meanwhile, throws
    out of the drain with the flag still set and the item lost.
  */
  function OnEncryptSettled(o: Oracles, s: State): (r: State)
    ensures LoopsKept(s, r)
    ensures TabsKept(s, r)
    ensures Accounted(r) == Accounted(s)
    ensures r.drain.Idle? && s.drain.Encrypting? ==> r.queue == []
    ensures !s.drain.Encrypting? ==> r == s
    ensures s.drain.Encrypting? && Seal(o, s.drain.key, s.drain.iv, s.drain.item.data).None? ==>
      r.drain == Stuck(s.drain.item) && r.queue == s.queue && r.log == s.log + [Threw(EncryptRejected)]
    ensures s.drain.Encrypting? && Seal(o, s.drain.key, s.drain.iv, s.drain.item.data).Some? && s.dt.None? ==>
      r.drain == Stuck(s.drain.item) && r.queue == s.queue && r.log == s.log + [Threw(NullClient)]
    ensures s.drain.Encrypting? && Seal(o, s.drain.key, s.drain.iv, s.drain.item.data).Some? && s.dt.Some? ==>
      r.log == s.log + [EmitData(s.drain.item.id, Seal(o, s.drain.key, s.drain.iv, s.drain.item.data).value, s.drain.item.data)]
    ensures s.log <= r.log && r.sPorts == s.sPorts && r.listeners == s.listeners
  {
    match s.drain
    case Encrypting(item, iv, key) =>
      (match Seal(o, key, iv, item.data)
       case None =>
         DataSentAppend(s.log, [Threw(EncryptRejected)]);
         Log(s.(drain := Stuck(item)), Threw(EncryptRejected))
       case Some(token) =>
         if s.dt.None? then
           DataSentAppend(s.log, [Threw(NullClient)]);
           Log(s.(drain := Stuck(item)), Threw(NullClient))
         else
           var s1 := Log(s, EmitData(item.id, token, item.data));
           DataSentConcat(s.log, [EmitData(item.id, token, item.data)]);
           DataSentOne(EmitData(item.id, token, item.data));
           NextItem(o, s1))
    case _ => s
  }

  // ---------------------------------------------------------------------------
  // Ports (lines 43-88)
  // ---------------------------------------------------------------------------

  /**
    `onConnect`: the reserved name `"GUI"` gets no entry and no listeners;
    any other port is stored under its name (replacing an earlier port of the
    same name) and a status is written. No `registerInputTab` call is made.
  */
  function OnConnect(s: State, name: TabName): (r: State)
    ensures LoopsKept(s, r)
    ensures name == ReservedName ==> r == s
    ensures name != ReservedName ==>
      && Registry.Lookup(r.sPorts, name) == Some(s.next)
      && (forall n :: n != name ==> Registry.Lookup(r.sPorts, n) == Registry.Lookup(s.sPorts, n))
      && Registry.NameSet(r.sPorts) == Registry.NameSet(s.sPorts) + {name}
      && r.ports == s.ports[s.next := name] && r.next == s.next + 1
      && (Registry.Distinct(s.sPorts) ==> Registry.Distinct(r.sPorts))
      && |r.log| == |s.log| + 1 && r.log[|s.log|].StatusWrite?
    ensures QueueUntouched(s, r)
  {
    if name == ReservedName then s
    else
      var p := s.next;
      var s1 := s.(ports := s.ports[p := name], sPorts := Registry.Put(s.sPorts, name, p), next := s.next + 1);
      DataSentAppend(s1.log, [Status(s1)]);
      WriteStatus(s1)
  }

  function Status(s: State): Action {
    StatusWrite(|s.sPorts|, s.connection.Some?)
  }

  /**
    `onDisconnect`: the port's name is deleted from `sPorts` (whichever port
    holds it now), `unregisterInputTab(name)` is called exactly when there is
    a client, and a status is written.
  */
  function OnDisconnect(s: State, p: PortId): (r: State)
    ensures LoopsKept(s, r)
    ensures QueueUntouched(s, r)
    ensures p !in s.ports ==> r == s
    ensures p in s.ports ==>
      && r.ports == s.ports - {p}
      && Registry.Lookup(r.sPorts, s.ports[p]) == None
      && (forall n :: n != s.ports[p] ==> Registry.Lookup(r.sPorts, n) == Registry.Lookup(s.sPorts, n))
      && (s.ports[p] != ReservedName && s.dt.Some? <==> UnregisterInputTab(s.ports[p]) in r.log[|s.log|..])
  {
    if p !in s.ports then s
    else
      var name := s.ports[p];
      var s1 := s.(ports := s.ports - {p}, sPorts := Registry.Remove(s.sPorts, name));
      var calls := if name != ReservedName && s1.dt.Some? then [UnregisterInputTab(name)] else [];
      var r := WriteStatus(s1.(log := s1.log + calls));
      assert r.log == s.log + (calls + [Status(s1)]);
      assert r.log[|s.log|..] == calls + [Status(s1)];
      DataSentAppend(s.log, calls + [Status(s1)]);
      r
  }

  /** A listener fires on a `custom` message from its port carrying its `qos`. */
  predicate Matches(l: Listener, p: PortId, msg: TabMessage) {
    l.port == p && msg.CustomMsg? && msg.qos == Some(l.qos)
  }

  /** The listeners a message fires, in installation order. */
  function Fired(ls: seq<Listener>, p: PortId, msg: TabMessage): (r: seq<Listener>)
    ensures forall i :: 0 <= i < |r| ==> Matches(r[i], p, msg)
    ensures forall l :: l in r <==> l in ls && Matches(l, p, msg)
    ensures |r| <= |ls|
  {
    if |ls| == 0 then []
    else (if Matches(ls[0], p, msg) then [ls[0]] else []) + Fired(ls[1..], p, msg)
  }

  /** The listeners a message leaves installed, in order. */
  function Kept(ls: seq<Listener>, p: PortId, msg: TabMessage): (r: seq<Listener>)
    ensures forall i :: 0 <= i < |r| ==> !Matches(r[i], p, msg)
    ensures forall l :: l in r <==> l in ls && !Matches(l, p, msg)
    ensures |r| <= |ls|
  {
    if |ls| == 0 then []
    else (if Matches(ls[0], p, msg) then [] else [ls[0]]) + Kept(ls[1..], p, msg)
  }

  /** What one fired listener does: encrypt the reply under a fresh IV and emit it under the request's nonce. */
  function ReplyAction(o: Oracles, key: Option<Key>, dt: Option<nat>, iv: seq<Byte>, l: Listener, data: string): (a: Action)
    ensures a.EmitSpecificReply? <==> Seal(o, key, iv, data).Some? && dt.Some?
    ensures a.EmitSpecificReply? ==> a == EmitSpecificReply(l.nonce, Seal(o, key, iv, data).value, data)
    ensures !a.EmitSpecificReply? ==> a == Threw(EncryptRejected) || a == Threw(NullClient)
  {
    match Seal(o, key, iv, data)
    case None => Threw(EncryptRejected)
    case Some(token) => if dt.None? then Threw(NullClient) else EmitSpecificReply(l.nonce, token, data)
  }

  /** `after` is `before` followed by one reply per fired listener, the `i`-th drawing IV number `draws + i`. */
  predicate RepliesLogged(o: Oracles, key: Option<Key>, dt: Option<nat>, draws: nat, fired: seq<Listener>, data: string,
                          before: seq<Action>, after: seq<Action>)
  {
    && |after| == |before| + |fired| && before <= after
    && forall i :: |before| <= i < |after| ==>
         after[i] == ReplyAction(o, key, dt, o.iv(draws + (i - |before|)), fired[i - |before|], data)
  }

  /** One reply in front of the rest, drawing the IV just before theirs. */
  lemma RepliesLoggedCons(o: Oracles, key: Option<Key>, dt: Option<nat>, draws: nat, fired: seq<Listener>, data: string,
                          before: seq<Action>, after: seq<Action>)
    requires |fired| > 0
    requires RepliesLogged(o, key, dt, draws + 1, fired[1..], data, before + [ReplyAction(o, key, dt, o.iv(draws), fired[0], data)], after)
    ensures RepliesLogged(o, key, dt, draws, fired, data, before, after)
  {
    var n := |before|;
    forall i | n <= i < |after|
      ensures after[i] == ReplyAction(o, key, dt, o.iv(draws + (i - n)), fired[i - n], data)
    {
      if i > n {
        assert fired[i - n] == fired[1..][i - (n + 1)];
      }
    }
  }

  /** Run the fired listeners in order; each one draws one IV and emits once. */
  function Reply(o: Oracles, s: State, fired: seq<Listener>, data: string): (r: State)
    ensures TabsKept(s, r)
    ensures RepliesLogged(o, s.key, s.dt, s.draws, fired, data, s.log, r.log)
    ensures DataSent(r.log) == DataSent(s.log)
    ensures r.draws == s.draws + |fired|
    ensures LoopsKept(s, r) && r.listeners == s.listeners && r.queue == s.queue && r.drain == s.drain
    decreases |fired|
  {
    if |fired| == 0 then s
    else
      var a := ReplyAction(o, s.key, s.dt, o.iv(s.draws), fired[0], data);
      var s1 := Log(s, a).(draws := s.draws + 1);
      DataSentAppend(s.log, [a]);
      var r := Reply(o, s1, fired[1..], data);
      RepliesLoggedCons(o, s.key, s.dt, s.draws, fired, data, s.log, r.log);
      r
  }

  /**
    The `handleReturnMessage` listeners of port `p` see the message after the
    general handler: each matching one removes itself and emits its reply; the
    others stay installed and do nothing.
  */
  function Correlate(o: Oracles, s: State, p: PortId, msg: TabMessage): (r: State)
    ensures LoopsKept(s, r)
    ensures TabsKept(s, r)
    ensures r.listeners == Kept(s.listeners, p, msg)
    ensures RepliesLogged(o, s.key, s.dt, s.draws, Fired(s.listeners, p, msg), msg.data, s.log, r.log)
    ensures QueueUntouched(s, r)
  {
    var fired := Fired(s.listeners, p, msg);
    var s1 := s.(listeners := Kept(s.listeners, p, msg));
    Reply(o, s1, fired, msg.data)
  }

  /**
    `onMessage` of a live port: a `data` message is appended to the queue, a
    `custom` one is emitted at once as `("specificData", qos, data)` when there
    is a client; then `processMessageQueue()` runs, and then the correlation
    listeners of that port see the message.
  */
  function OnPortMessage(o: Oracles, s: State, p: PortId, msg: TabMessage): (r: State)
    ensures LoopsKept(s, r)
    ensures TabsKept(s, r)
    ensures s.log <= r.log && r.sPorts == s.sPorts && r.ports == s.ports
    ensures p !in s.ports ==> r == s
    ensures p in s.ports ==> r.listeners == Kept(s.listeners, p, msg)
    ensures p in s.ports && msg.DataMsg? ==>
      Accounted(r) == Accounted(s) + [Item(s.ports[p], msg.data)]
    ensures !msg.DataMsg? ==> Accounted(r) == Accounted(s)
    ensures p in s.ports && msg.CustomMsg? && s.dt.Some? ==>
      |r.log| > |s.log| && r.log[|s.log|] == EmitSpecificData(msg.qos, msg.data)
  {
    if p !in s.ports then s
    else
      var s1 := Receive(s, s.ports[p], msg);
      var s2 := ProcessQueue(o, s1);
      Correlate(o, s2, p, msg)
  }

  /** The general `onMessage` handler before its call to `processMessageQueue()`. */
  function Receive(s: State, name: TabName, msg: TabMessage): (r: State)
    ensures LoopsKept(s, r)
    ensures TabsKept(s, r)
    ensures msg.DataMsg? ==> r == s.(queue := s.queue + [Item(name, msg.data)])
    ensures msg.DataMsg? ==> Accounted(r) == Accounted(s) + [Item(name, msg.data)]
    ensures msg.CustomMsg? ==> QueueUntouched(s, r)
    ensures msg.CustomMsg? && s.dt.Some? ==> r.log == s.log + [EmitSpecificData(msg.qos, msg.data)]
    ensures msg.CustomMsg? && s.dt.None? ==> r == s
    ensures msg.OtherMsg? ==> r == s
    ensures s.log <= r.log && r.sPorts == s.sPorts && r.ports == s.ports && r.listeners == s.listeners
  {
    match msg
    case DataMsg(d) => s.(queue := s.queue + [Item(name, d)])
    case CustomMsg(q, d) =>
      if s.dt.Some? then
        DataSentAppend(s.log, [EmitSpecificData(q, d)]);
        Log(s, EmitSpecificData(q, d))
      else s
    case OtherMsg(_) => s
  }

  // ---------------------------------------------------------------------------
  // Relay-client handlers (lines 131-203)
  // ---------------------------------------------------------------------------

  /**
    `requestSpecificData(id, data, nonce)`: for a registered tab, post
    `{type: "custom", qos, data}` to its port and install a listener for the
    reply; for an unknown tab, nothing at all.
  */
  function OnRequestSpecificData(s: State, client: nat, id: TabName, data: string, nonce: Nonce, qos: Qos): (r: State)
    ensures LoopsKept(s, r)
    ensures TabsKept(s, r)
    ensures client !in s.listening || Registry.Lookup(s.sPorts, id).None? ==> r == s
    ensures client in s.listening && Registry.Lookup(s.sPorts, id).Some? ==>
      var p := Registry.Lookup(s.sPorts, id).value;
      && r.log == s.log + [Post(p, CustomOut(qos, data))]
      && r.listeners == s.listeners + [Listener(p, qos, nonce)]
    ensures QueueUntouched(s, r) && r.sPorts == s.sPorts
  {
    if client !in s.listening then s
    else
      match Registry.Lookup(s.sPorts, id)
      case None => s
      case Some(p) =>
        DataSentAppend(s.log, [Post(p, CustomOut(qos, data))]);
        Log(s, Post(p, CustomOut(qos, data))).(listeners := s.listeners + [Listener(p, qos, nonce)])
  }

  /** `if (tabID)`: absent and empty ids are falsy. */
  predicate Truthy(tabID: Option<string>) {
    tabID.Some? && tabID.value != ""
  }

  /**
    `injData(qos, data, tabID)`: a known tab gets the decryption of the z85
    bytes (first 16 = IV, rest = ciphertext); an unknown tab gets nothing; a
    falsy `tabID` sends the undecrypted data to the port at index
    `floor(random * size)` of `sPorts.values()`, or to none when there is none.
  */
  function OnInjData(o: Oracles, s: State, client: nat, qos: RemoteQos, data: string, tabID: Option<string>, pick: nat): (r: State)
    ensures LoopsKept(s, r)
    ensures TabsKept(s, r)
    ensures client !in s.listening ==> r == s
    ensures client in s.listening && Truthy(tabID) ==>
      match Registry.Lookup(s.sPorts, tabID.value)
      case None => r == s
      case Some(p) =>
        match Open(o, s.key, data)
        case None => r.log == s.log + [Threw(DecryptRejected)]
        case Some(plain) => r.log == s.log + [Post(p, DataOut(qos, plain))]
    ensures client in s.listening && !Truthy(tabID) ==>
      if pick < |s.sPorts| then r.log == s.log + [Post(s.sPorts[pick].port, DataOut(qos, data))] else r == s
    ensures QueueUntouched(s, r) && r.sPorts == s.sPorts && r.listeners == s.listeners
  {
    if client !in s.listening then s
    else if Truthy(tabID) then
      match Registry.Lookup(s.sPorts, tabID.value)
      case None => s
      case Some(p) =>
        var a := match Open(o, s.key, data)
          case None => Threw(DecryptRejected)
          case Some(plain) => Post(p, DataOut(qos, plain));
        DataSentAppend(s.log, [a]);
        Log(s, a)
    else
      var ports := Registry.Ports(s.sPorts);
      if pick < |ports| then
        DataSentAppend(s.log, [Post(ports[pick], DataOut(qos, data))]);
        Log(s, Post(ports[pick], DataOut(qos, data)))
      else s
  }

  /** `k` copies of a sequence, one after another. */
  function Repeat<T>(xs: seq<T>, k: nat): (r: seq<T>)
    ensures |r| == k * |xs|
    ensures forall i :: 0 <= i < |r| ==> r[i] in xs
  {
    if k == 0 then [] else xs + Repeat(xs, k - 1)
  }

  /**
    `resumeFailed(newConn)` on a connection with `updateResume` hooks: the new
    session becomes `connection` and is hooked in turn; each hook then calls
    `registerInput` with the stored account ID and `registerInputTab` with the
    current names, or throws when there is no client.
  */
  function OnResumeFailed(s: State, conn: nat, storedAccountID: Option<string>): (r: State)
    ensures LoopsKept(s, r)
    ensures TabsKept(s, r)
    ensures QueueUntouched(s, r) && r.sPorts == s.sPorts && r.listeners == s.listeners
    ensures s.resumeHooks[conn] == 0 ==> r == s
    ensures s.resumeHooks[conn] > 0 ==>
      && r.connection == Some(s.next)
      && r.resumeHooks[s.next] == s.resumeHooks[conn]
      && (conn != s.next ==> r.resumeHooks[conn] == 0)
      && (s.dt.Some? ==> r.log[|s.log|..] == Repeat([RegisterInput(storedAccountID), RegisterInputTab(Names(s))], s.resumeHooks[conn]))
      && (s.dt.Some? ==> RegisterInputTab(Names(s)) in r.log[|s.log|..])
      && (s.dt.None? ==> r.log[|s.log|..] == Repeat([Threw(NullClient)], s.resumeHooks[conn]))
  {
    var k := s.resumeHooks[conn];
    if k == 0 then s
    else
      var c := s.next;
      var calls := if s.dt.Some? then [RegisterInput(storedAccountID), RegisterInputTab(Names(s))] else [Threw(NullClient)];
      var more := Repeat(calls, k);
      assert more == calls + Repeat(calls, k - 1);
      assert s.dt.Some? ==> more[1] == RegisterInputTab(Names(s));
      DataSentAppend(s.log, more);
      var r := s.(connection := Some(c), resumeHooks := s.resumeHooks[conn := 0][c := k], next := c + 1, log := s.log + more);
      assert r.log[|s.log|..] == more;
      r
  }

  /** The keep-alive interval: `dt?.p.registerInputTab([...sPorts.keys()])`. */
  function OnKeepAlive(s: State): (r: State)
    ensures LoopsKept(s, r)
    ensures TabsKept(s, r)
    ensures s.dt.Some? ==> r.log == s.log + [RegisterInputTab(Names(s))]
    ensures s.dt.None? ==> r == s
    ensures QueueUntouched(s, r)
  {
    if s.dt.Some? then
      DataSentAppend(s.log, [RegisterInputTab(Names(s))]);
      Log(s, RegisterInputTab(Names(s)))
    else s
  }

  // ---------------------------------------------------------------------------
  // The connect loop (lines 91-224)
  // ---------------------------------------------------------------------------

  /** What the initial check and the change handler demand before connecting. */
  predicate Connectable(c: Config) {
    c.relayServerAddress != "" && c.accountID != "" && c.encryptionKey != ""
  }

  /**
    The top of one iteration of the `for (;;)`: return if aborted; otherwise
    write a status and call `connect` with the address split on `'!'`.
  */
  function LoopTop(s: State, id: nat, config: Config, ctrl: nat): (r: State)
    ensures TabsKept(s, r)
    ensures ctrl in s.aborted ==> r == s.(loops := s.loops - {id})
    ensures ctrl !in s.aborted ==>
      && r.loops == s.loops[id := Loop(config, ctrl, Connecting)]
      && r.log == s.log + [Status(s), ConnectCall(id, Address.Url(config.relayServerAddress), Address.Hash(config.relayServerAddress))]
    ensures QueueUntouched(s, r) && r.sPorts == s.sPorts && r.listeners == s.listeners
    ensures r.(loops := s.loops, log := s.log) == s
  {
    if ctrl in s.aborted then s.(loops := s.loops - {id})
    else
      var more := [Status(s), ConnectCall(id, Address.Url(config.relayServerAddress), Address.Hash(config.relayServerAddress))];
      DataSentAppend(s.log, more);
      s.(log := s.log + more, loops := s.loops[id := Loop(config, ctrl, Connecting)])
  }

  /** `connectWithConfig(config, ctrl)` called without `await`: it runs up to its first `await`. */
  function StartLoop(s: State, config: Config, ctrl: nat): (r: State)
    ensures TabsKept(s, r)
  {
    LoopTop(s.(next := s.next + 1), s.next, config, ctrl)
  }

  /** The loop's promise rejects with `f`. */
  function EndLoop(s: State, id: nat, f: Fault): (r: State)
    ensures TabsKept(s, r)
    ensures r.log == s.log + [Threw(f)] && r.loops == s.loops - {id}
    ensures QueueUntouched(s, r)
  {
    DataSentAppend(s.log, [Threw(f)]);
    Log(s.(loops := s.loops - {id}), Threw(f))
  }

  predicate IsPhase(s: State, id: nat, ph: Phase) {
    id in s.loops && s.loops[id].phase == ph
  }

  /**
    `connect` settles. A failure is swallowed and the loop waits out its
    backoff. A success leaves the loop: the session becomes `connection` and
    the configured key is hex-decoded, which throws on a malformed key;
    otherwise `importKey` is awaited with the decoded bytes.
  */
  function OnConnectSettled(o: Oracles, s: State, id: nat, ok: bool): (r: State)
    ensures TabsKept(s, r)
    ensures !IsPhase(s, id, Connecting) ==> r == s
    ensures IsPhase(s, id, Connecting) && !ok ==>
      r == s.(loops := s.loops[id := s.loops[id].(phase := BackingOff)])
    ensures IsPhase(s, id, Connecting) && ok ==>
      var key := s.loops[id].config.encryptionKey;
      && r.connection == Some(s.next) && r.dt == s.dt && r.key == s.key
      && (HexToBytes(key).Success? ==> IsPhase(r, id, Importing(HexToBytes(key).value)) && r.log == s.log)
      && (HexToBytes(key).Failure? ==> r.log == s.log + [Threw(InvalidHex)] && id !in r.loops)
    ensures QueueUntouched(s, r) && r.sPorts == s.sPorts && r.listeners == s.listeners && r.listening == s.listening
  {
    if !IsPhase(s, id, Connecting) then s
    else
      var l := s.loops[id];
      if !ok then s.(loops := s.loops[id := l.(phase := BackingOff)])
      else
        var c := s.next;
        var s1 := s.(connection := Some(c), next := c + 1);
        match HexToBytes(l.config.encryptionKey)
        case Failure(_) => EndLoop(s1, id, InvalidHex)
        case Success(raw) => s1.(loops := s.loops[id := l.(phase := Importing(raw))])
  }

  /**
    `importKey` settles: a rejection ends the loop; otherwise the key becomes
    `currentEncryptionKey`, a client is created on whatever `connection` is
    now, and `registerInput(accountID)` is called.
  */
  function OnImportSettled(o: Oracles, s: State, id: nat): (r: State)
    ensures TabsKept(s, r)
    ensures id !in s.loops || !s.loops[id].phase.Importing? ==> r == s
    ensures id in s.loops && s.loops[id].phase.Importing? ==>
      match o.importKey(s.loops[id].phase.raw)
      case None => r.log == s.log + [Threw(ImportRejected)] && id !in r.loops && r.key == s.key && r.dt == s.dt
      case Some(k) =>
        && r.key == Some(k) && r.dt == Some(s.next) && r.connection == s.connection
        && IsPhase(r, id, Registering)
        && r.log == s.log + [RegisterInput(Some(s.loops[id].config.accountID))]
    ensures QueueUntouched(s, r) && r.sPorts == s.sPorts && r.listeners == s.listeners && r.listening == s.listening
  {
    if id !in s.loops || !s.loops[id].phase.Importing? then s
    else
      var l := s.loops[id];
      match o.importKey(l.phase.raw)
      case None => EndLoop(s, id, ImportRejected)
      case Some(k) =>
        var d := s.next;
        DataSentAppend(s.log, [RegisterInput(Some(l.config.accountID))]);
        Log(s.(key := Some(k), dt := Some(d), next := d + 1, loops := s.loops[id := l.(phase := Registering)]),
            RegisterInput(Some(l.config.accountID)))
  }

  /** The 15-second backoff elapses: back to the top of the loop, where the abort flag is checked. */
  function OnBackoffElapsed(s: State, id: nat): (r: State)
    ensures TabsKept(s, r)
    ensures !IsPhase(s, id, BackingOff) ==> r == s
    ensures IsPhase(s, id, BackingOff) && s.loops[id].ctrl in s.aborted ==>
      r.log == s.log && id !in r.loops
    ensures IsPhase(s, id, BackingOff) && s.loops[id].ctrl !in s.aborted ==>
      var a := s.loops[id].config.relayServerAddress;
      IsPhase(r, id, Connecting) && r.log == s.log + [Status(s), ConnectCall(id, Address.Url(a), Address.Hash(a))]
    ensures QueueUntouched(s, r) && r.sPorts == s.sPorts && r.listeners == s.listeners
  {
    if !IsPhase(s, id, BackingOff) then s
    else LoopTop(s, id, s.loops[id].config, s.loops[id].ctrl)
  }

  /**
    `registerInput` settles: `false` throws "Failed to register input" before
    `registerInputTab` is reached; `true` calls `registerInputTab` with the
    current names on the current client.
  */
  function OnRegisterSettled(s: State, id: nat, ok: bool): (r: State)
    ensures TabsKept(s, r)
    ensures !IsPhase(s, id, Registering) ==> r == s
    ensures IsPhase(s, id, Registering) && !ok ==>
      r.log == s.log + [Threw(RegisterInputFalse)] && id !in r.loops
    ensures IsPhase(s, id, Registering) && ok && s.dt.Some? ==>
      r.log == s.log + [RegisterInputTab(Names(s))] && IsPhase(r, id, RegisteringTabs)
    ensures IsPhase(s, id, Registering) && ok && s.dt.None? ==>
      r.log == s.log + [Threw(NullClient)] && id !in r.loops
    ensures QueueUntouched(s, r) && r.sPorts == s.sPorts && r.listeners == s.listeners && r.dt == s.dt
  {
    if !IsPhase(s, id, Registering) then s
    else if !ok then EndLoop(s, id, RegisterInputFalse)
    else if s.dt.None? then EndLoop(s, id, NullClient)
    else
      DataSentAppend(s.log, [RegisterInputTab(Names(s))]);
      Log(s.(loops := s.loops[id := s.loops[id].(phase := RegisteringTabs)]), RegisterInputTab(Names(s)))
  }

  /**
    `registerInputTab` settles: the handlers are installed on the current
    client, a status is written, and the current connection gets its
    `resumeFailed` hook. The loop is over.
  */
  function OnRegisterTabsSettled(s: State, id: nat, ok: bool): (r: State)
    ensures TabsKept(s, r)
    ensures !IsPhase(s, id, RegisteringTabs) ==> r == s
    ensures IsPhase(s, id, RegisteringTabs) ==> id !in r.loops && r.loops == s.loops - {id}
    ensures IsPhase(s, id, RegisteringTabs) && ok && s.dt.Some? ==> r.listening == s.listening + {s.dt.value}
    ensures QueueUntouched(s, r) && r.sPorts == s.sPorts && r.listeners == s.listeners
  {
    if !IsPhase(s, id, RegisteringTabs) then s
    else if !ok then EndLoop(s, id, RegisterTabsRejected)
    else if s.dt.None? then EndLoop(s, id, NullClient)
    else
      var s1 := s.(listening := s.listening + {s.dt.value}, loops := s.loops - {id});
      DataSentAppend(s.log, [Status(s1)]);
      var s2 := Log(s1, Status(s1));
      if s.connection.None? then
        DataSentAppend(s2.log, [Threw(NullConnection)]);
        Log(s2, Threw(NullConnection))
      else s2.(resumeHooks := s2.resumeHooks + multiset{s.connection.value})
  }

  /** The startup read of the stored config (lines 226-235). */
  function OnInitialConfig(s: State, config: Option<Config>): (r: State)
    ensures TabsKept(s, r)
    ensures config.None? || !Connectable(config.value) ==> r == s
    ensures config.Some? && Connectable(config.value) && s.haltLoop !in s.aborted ==>
      IsPhase(r, s.next, Connecting) && r.loops[s.next].ctrl == s.haltLoop
    ensures QueueUntouched(s, r) && r.sPorts == s.sPorts && r.listeners == s.listeners
  {
    if config.Some? && Connectable(config.value) then StartLoop(s, config.value, s.haltLoop) else s
  }

  // ---------------------------------------------------------------------------
  // Configuration changes (lines 237-263)
  // ---------------------------------------------------------------------------

  function KeyText(c: Option<Config>): Option<string> {
    if c.None? then None else Some(c.value.encryptionKey)
  }

  function AddressText(c: Option<Config>): Option<string> {
    if c.None? then None else Some(c.value.relayServerAddress)
  }

  /** `currentEncryptionKey = await importKey(hexToUint8Array(newValue.encryptionKey))`. */
  function ReimportKey(o: Oracles, s: State, after: Option<Config>): (r: Result<State, Fault>)
    ensures r.Success? ==> r.value == s.(key := r.value.key) && r.value.key.Some?
    ensures after.Some? && HexToBytes(after.value.encryptionKey).Success? ==>
      match o.importKey(HexToBytes(after.value.encryptionKey).value)
      case None => r == Failure(ImportRejected)
      case Some(k) => r == Success(s.(key := Some(k)))
    ensures after.None? ==> r == Failure(NullConfig)
    ensures after.Some? && HexToBytes(after.value.encryptionKey).Failure? ==> r == Failure(InvalidHex)
  {
    if after.None? then Failure(NullConfig)
    else
      match HexToBytes(after.value.encryptionKey)
      case Failure(_) => Failure(InvalidHex)
      case Success(raw) =>
        match o.importKey(raw)
        case None => Failure(ImportRejected)
        case Some(k) => Success(s.(key := Some(k)))
  }

  /**
    Tear down for an address change. With no connection the pending connect
    loop's controller is aborted; otherwise the connection is closed and the
    client dropped with all its handlers. `abortOnClose` selects the
    corrected behaviour, which aborts the controller in both cases.
  */
  function Teardown(s: State, abortOnClose: bool): (r: State)
    ensures TabsKept(s, r)
    ensures s.connection.None? ==> r == s.(aborted := s.aborted + {s.haltLoop})
    ensures s.connection.Some? ==>
      && r.log == s.log + [CloseConnection(s.connection.value)]
      && r.dt == None
      && r.aborted == (if abortOnClose then s.aborted + {s.haltLoop} else s.aborted)
      && r.listening == (if s.dt.Some? then s.listening - {s.dt.value} else s.listening)
      && r.connection == s.connection
    ensures QueueUntouched(s, r) && r.sPorts == s.sPorts && r.listeners == s.listeners && r.loops == s.loops
    ensures r.next == s.next && r.haltLoop == s.haltLoop && r.key == s.key
  {
    if s.connection.None? then s.(aborted := s.aborted + {s.haltLoop})
    else
      DataSentAppend(s.log, [CloseConnection(s.connection.value)]);
      var s1 := Log(s, CloseConnection(s.connection.value));
      var s2 := if s1.dt.Some? then s1.(listening := s1.listening - {s1.dt.value}, dt := None) else s1;
      if abortOnClose then s2.(aborted := s2.aborted + {s2.haltLoop}) else s2
  }

  /** The body of the `storage.onChanged` handler for a config change, parameterised by the teardown. */
  function ConfigChange(o: Oracles, s: State, before: Option<Config>, after: Option<Config>, abortOnClose: bool): (r: State)
    ensures TabsKept(s, r)
    ensures QueueUntouched(s, r) && r.sPorts == s.sPorts && r.listeners == s.listeners
  {
    var imported := if KeyText(after) != KeyText(before) then ReimportKey(o, s, after) else Success(s);
    match imported
    case Failure(f) =>
      DataSentAppend(s.log, [Threw(f)]);
      Log(s, Threw(f))
    case Success(s1) =>
      if AddressText(after) == AddressText(before) then s1
      else Restart(Teardown(s1, abortOnClose), after)
  }

  /**
    `haltLoop = new AbortController()`, then, for a complete config, a new
    connect loop under it.
  */
  function Restart(s: State, after: Option<Config>): (r: State)
    ensures TabsKept(s, r)
    ensures QueueUntouched(s, r) && r.listeners == s.listeners
    ensures r.haltLoop == s.next && r.aborted == s.aborted
    ensures after.None? || !Connectable(after.value) ==> r == s.(haltLoop := s.next, next := s.next + 1)
    ensures after.Some? && Connectable(after.value) && s.next !in s.aborted ==>
      var a := after.value.relayServerAddress;
      && IsPhase(r, s.next + 1, Connecting) && r.loops[s.next + 1] == Loop(after.value, s.next, Connecting)
      && r.next == s.next + 2
      && r.log == s.log + [StatusWrite(|s.sPorts|, s.connection.Some?), ConnectCall(s.next + 1, Address.Url(a), Address.Hash(a))]
  {
    var h := s.next;
    var s1 := s.(haltLoop := h, next := h + 1);
    if after.Some? && Connectable(after.value) then StartLoop(s1, after.value, h) else s1
  }

  /** The handler as written: the controller is aborted only when there is no connection. */
  function OnConfigChangedAsWritten(o: Oracles, s: State, before: Option<Config>, after: Option<Config>): (r: State)
    ensures TabsKept(s, r)
    ensures QueueUntouched(s, r)
  {
    ConfigChange(o, s, before, after, false)
  }

  /** The corrected handler: the old controller is aborted on every address change. */
  function OnConfigChanged(o: Oracles, s: State, before: Option<Config>, after: Option<Config>): (r: State)
    ensures TabsKept(s, r)
    ensures QueueUntouched(s, r)
  {
    ConfigChange(o, s, before, after, true)
  }

  // ---------------------------------------------------------------------------
  // Events
  // ---------------------------------------------------------------------------

  datatype Event =
    | Attach(name: TabName)                        // chrome.runtime.onConnect
    | Detach(port: PortId)                         // port.onDisconnect
    | PortMessage(port: PortId, msg: TabMessage)   // port.onMessage
    | EncryptSettled                               // the drain's `await encrypt` settles
    | InitialConfig(config: Option<Config>)        // the startup storage read
    | ConfigChanged(before: Option<Config>, after: Option<Config>)
    | ConnectSettled(loop: nat, ok: bool)
    | ImportSettled(loop: nat)
    | BackoffElapsed(loop: nat)
    | RegisterSettled(loop: nat, ok: bool)
    | RegisterTabsSettled(loop: nat, ok: bool)
    | RequestSpecificData(client: nat, id: TabName, data: string, nonce: Nonce, qos: Qos)
    | InjData(client: nat, remote: RemoteQos, data: string, tabID: Option<string>, pick: nat)
    | ResumeFailed(conn: nat, storedAccountID: Option<string>)
    | KeepAlive

  /**
    The service worker's transition function, with the change handler as
    written: each event runs its handler up to the next suspension point the
    model keeps.
  */
  function Step(o: Oracles, s: State, e: Event): State {
    match e
    case Attach(name) => OnConnect(s, name)
    case Detach(p) => OnDisconnect(s, p)
    case PortMessage(p, msg) => OnPortMessage(o, s, p, msg)
    case EncryptSettled => OnEncryptSettled(o, s)
    case InitialConfig(c) => OnInitialConfig(s, c)
    case ConfigChanged(before, after) => OnConfigChangedAsWritten(o, s, before, after)
    case ConnectSettled(id, ok) => OnConnectSettled(o, s, id, ok)
    case ImportSettled(id) => OnImportSettled(o, s, id)
    case BackoffElapsed(id) => OnBackoffElapsed(s, id)
    case RegisterSettled(id, ok) => OnRegisterSettled(s, id, ok)
    case RegisterTabsSettled(id, ok) => OnRegisterTabsSettled(s, id, ok)
    case RequestSpecificData(c, id, data, nonce, qos) => OnRequestSpecificData(s, c, id, data, nonce, qos)
    case InjData(c, qos, data, tabID, pick) => OnInjData(o, s, c, qos, data, tabID, pick)
    case ResumeFailed(conn, acct) => OnResumeFailed(s, conn, acct)
    case KeepAlive => OnKeepAlive(s)
  }

  /** The service worker's transition function, for a fixed choice of library behaviour. */
  function StepOf(o: Oracles): (State, Event) -> State {
    (s, e) => Step(o, s, e)
  }

  /** The state after a sequence of events, each one handled to completion before the next. */
  function Run(o: Oracles, s: State, events: seq<Event>): State {
    Fold(StepOf(o), s, events)
  }

  /** The service worker with the corrected change handler; every other event is handled as written. */
  function CorrectedStep(o: Oracles, s: State, e: Event): State {
    if e.ConfigChanged? then OnConfigChanged(o, s, e.before, e.after) else Step(o, s, e)
  }

  function CorrectedStepOf(o: Oracles): (State, Event) -> State {
    (s, e) => CorrectedStep(o, s, e)
  }

  function CorrectedRun(o: Oracles, s: State, events: seq<Event>): State {
    Fold(CorrectedStepOf(o), s, events)
  }

  function Fold(t: (State, Event) -> State, s: State, events: seq<Event>): State
    decreases |events|
  {
    if |events| == 0 then s else Fold(t, t(s, events[0]), events[1..])
  }
}

=== FILE: envelope.dfy ===
/**
  The payload envelope the service worker puts on the wire: AES-CBC under the
  current key with a fresh 16-byte IV, `IV ‖ ciphertext`, encoded as z85.
  The cipher, z85, UTF-8, key import and the random source are not modelled;
  they are the fields of `Oracles`, supplied by the caller.
*/
module Envelope {
  import opened Base

  /** A `CryptoKey` handle produced by `importKey`. */
  datatype Key = AesKey(handle: nat)

  const IvLength := 16

  /** The library calls the relay makes, as uninterpreted functions. */
  datatype Oracles = Oracles(
    /** `SubtleCrypto.encrypt({name: "AES-CBC", iv}, key, bytes)`; `None` is a rejection. */
    encrypt: (Key, seq<Byte>, seq<Byte>) -> Option<seq<Byte>>,
    /** `SubtleCrypto.decrypt({name: "AES-CBC", iv}, key, bytes)`; `None` is a rejection. */
    decrypt: (Key, seq<Byte>, seq<Byte>) -> Option<seq<Byte>>,
    /** `base85.encode(buf, "z85")`. */
    z85Encode: seq<Byte> -> string,
    /** `base85.decode(text, "z85")`; `None` when the text is not z85. */
    z85Decode: string -> Option<seq<Byte>>,
    /** `new TextEncoder().encode`. */
    utf8Encode: string -> seq<Byte>,
    /** `new TextDecoder().decode`. */
    utf8Decode: seq<Byte> -> string,
    /** `SubtleCrypto.importKey("raw", bytes, "AES-CBC", …)`; `None` is a rejection. */
    importKey: seq<Byte> -> Option<Key>,
    /** The bytes the `n`-th `crypto.getRandomValues(new Uint8Array(16))` call returns. */
    iv: nat -> seq<Byte>)

  /** `Buffer.from([...iv, ...new Uint8Array(encrypted)])`. */
  function Pack(iv: seq<Byte>, ciphertext: seq<Byte>): seq<Byte> {
    iv + ciphertext
  }

  /** `buf.slice(0, 16)` and `buf.slice(16)`; both are clamped on a short buffer. */
  function Unpack(buf: seq<Byte>): (r: (seq<Byte>, seq<Byte>))
    ensures r.0 + r.1 == buf
    ensures |r.0| == if |buf| < IvLength then |buf| else IvLength
  {
    var n := if |buf| < IvLength then |buf| else IvLength;
    (buf[..n], buf[n..])
  }

  /** Splitting undoes packing whenever the IV is 16 bytes, and packing undoes splitting always. */
  lemma UnpackPack(iv: seq<Byte>, ciphertext: seq<Byte>, buf: seq<Byte>)
    requires |iv| == IvLength
    ensures Unpack(Pack(iv, ciphertext)) == (iv, ciphertext)
    ensures Pack(Unpack(buf).0, Unpack(buf).1) == buf
  {
    assert (iv + ciphertext)[..IvLength] == iv;
    assert (iv + ciphertext)[IvLength..] == ciphertext;
  }

  /** Encrypt a string for the wire; `None` when there is no key or the cipher rejects. */
  function Seal(o: Oracles, key: Option<Key>, iv: seq<Byte>, plain: string): Option<string> {
    if key.None? then None
    else match o.encrypt(key.value, iv, o.utf8Encode(plain))
      case None => None
      case Some(ct) => Some(o.z85Encode(Pack(iv, ct)))
  }

  /** Decode and decrypt a wire string; `None` when any step throws. */
  function Open(o: Oracles, key: Option<Key>, token: string): Option<string> {
    if key.None? then None
    else match o.z85Decode(token)
      case None => None
      case Some(buf) =>
        var (iv, ct) := Unpack(buf);
        match o.decrypt(key.value, iv, ct)
        case None => None
        case Some(pt) => Some(o.utf8Decode(pt))
  }

  /**
    The libraries' own round-trip promises at one point: z85 decodes what it
    encoded, AES-CBC decrypts what it encrypted under the same key and IV, and
    UTF-8 decodes what it encoded.
  */
  predicate LawsAt(o: Oracles, k: Key, iv: seq<Byte>, plain: string) {
    var ct := o.encrypt(k, iv, o.utf8Encode(plain));
    ct.Some? ==>
      && o.z85Decode(o.z85Encode(Pack(iv, ct.value))) == Some(Pack(iv, ct.value))
      && o.decrypt(k, iv, ct.value) == Some(o.utf8Encode(plain))
      && o.utf8Decode(o.utf8Encode(plain)) == plain
  }

  /** Opening a sealed string under the same key gives back the plaintext. */
  lemma OpenSeal(o: Oracles, k: Key, iv: seq<Byte>, plain: string)
    requires |iv| == IvLength && LawsAt(o, k, iv, plain)
    requires Seal(o, Some(k), iv, plain).Some?
    ensures Open(o, Some(k), Seal(o, Some(k), iv, plain).value) == Some(plain)
  {
    var ct := o.encrypt(k, iv, o.utf8Encode(plain)).value;
    UnpackPack(iv, ct, []);
  }
}

=== FILE: gui.dfy ===
/**
  The parts of the settings panel (`src/gui/App.tsx`) the relay depends on:
  which Encryption Key texts the panel flags, how it generates a key, and what
  Save stores.
*/
module Gui {
  import opened Base
  import opened HexCodec

  /** The `config` record Save writes to `chrome.storage.local`. */
  datatype Config = Config(mode: int, relayServerAddress: string, accountID: string, encryptionKey: string)

  /** The panel's form state (the `useState` variables Save reads, plus the ones it does not). */
  datatype Form = Form(
    mode: int,
    relayServerAddress: string,
    accountID: string,
    p2pID: string,
    encryptionKey: string,
    viewEncryptionKey: bool)

  /** The panel's regular expression `^[0-9a-fA-F]+$`: one or more hex digits, nothing else. */
  predicate MatchesHexPattern(k: string) {
    |k| >= 1 && AllHex(k)
  }

  /**
    The `error` flag of the Encryption Key field: wrong length, or not all
    hex digits. Every odd-length key is flagged.
  */
  function KeyFieldInvalid(k: string): (flagged: bool)
    ensures |k| % 2 != 0 ==> flagged
    ensures !flagged ==> |k| == 64 && AllHex(k)
  {
    |k| != 64 || !MatchesHexPattern(k)
  }

  /** A key the field accepts decodes to exactly 32 bytes, and re-encoding them gives the key in lowercase. */
  lemma AcceptedKeyDecodes(k: string)
    requires !KeyFieldInvalid(k)
    ensures HexToBytes(k).Success? && |HexToBytes(k).value| == 32
    ensures BytesToHex(HexToBytes(k).value) == LowerString(k)
  {
    EncodeDecode(k);
  }

  /** The field flags a key exactly when it is not the hex spelling, in either case, of 32 bytes. */
  lemma KeyFieldInvalidIffNotEncoding(k: string)
    ensures !KeyFieldInvalid(k) <==> (AllHex(k) && HexToBytes(k).Success? && |HexToBytes(k).value| == 32)
  {
  }

  /** `Array.from(bytes).map(v => v.toString(16).padStart(2, "0")).join("")`. */
  function JoinHex(bytes: seq<Byte>): string {
    if |bytes| == 0 then "" else ByteToHex(bytes[0]) + JoinHex(bytes[1..])
  }

  /** The key the panel generates from the 32 bytes `crypto.getRandomValues` returns. */
  function GenerateKey(random: seq<Byte>): (k: string)
    requires |random| == 32
    ensures |k| == 64 && AllLowerHex(k)
    ensures !KeyFieldInvalid(k)
    ensures HexToBytes(k) == Success(random)
  {
    JoinHexIsBytesToHex(random);
    DecodeEncode(random);
    JoinHex(random)
  }

  /** Joining the per-byte strings left to right is the service worker's `uint8arrayToHex`. */
  lemma {:induction false} JoinHexIsBytesToHex(bytes: seq<Byte>)
    ensures JoinHex(bytes) == BytesToHex(bytes)
    decreases |bytes|
  {
    if |bytes| > 0 {
      var n := |bytes| - 1;
      if n == 0 {
        assert bytes[..n] == [];
      } else {
        calc {
          JoinHex(bytes);
          ByteToHex(bytes[0]) + JoinHex(bytes[1..]);
          { JoinHexIsBytesToHex(bytes[1..]); }
          ByteToHex(bytes[0]) + BytesToHex(bytes[1..]);
          { assert bytes[1..][..n - 1] == bytes[1..n]; }
          ByteToHex(bytes[0]) + (BytesToHex(bytes[1..n]) + ByteToHex(bytes[n]));
          { JoinHexIsBytesToHex(bytes[1..n]); }
          (ByteToHex(bytes[0]) + JoinHex(bytes[1..n])) + ByteToHex(bytes[n]);
          { assert bytes[..n][0] == bytes[0] && bytes[..n][1..] == bytes[1..n]; }
          JoinHex(bytes[..n]) + ByteToHex(bytes[n]);
          { JoinHexIsBytesToHex(bytes[..n]); }
          BytesToHex(bytes[..n]) + ByteToHex(bytes[n]);
        }
      }
    }
  }

  /**
    Save: writes the four fields as they stand in the form. It does not
    consult `KeyFieldInvalid`, so a flagged key is stored all the same.
  */
  function Save(f: Form): (c: Config)
    ensures c.mode == f.mode && c.relayServerAddress == f.relayServerAddress
    ensures c.accountID == f.accountID && c.encryptionKey == f.encryptionKey
  {
    Config(f.mode, f.relayServerAddress, f.accountID, f.encryptionKey)
  }

  /**
    The panel's start-up read of the stored config into the form: a missing
    record leaves mode 1 and empty texts; the key's visibility toggle and
    the P2P ID are the form's own.
  */
  function Load(stored: Option<Config>, f: Form): (g: Form)
    ensures g.p2pID == f.p2pID && g.viewEncryptionKey == f.viewEncryptionKey
    ensures stored.None? ==> g.mode == 1 && g.relayServerAddress == "" && g.accountID == "" && g.encryptionKey == ""
    ensures stored.Some? ==> Save(g) == stored.value
  {
    match stored
    case None => f.(mode := 1, relayServerAddress := "", accountID := "", encryptionKey := "")
    case Some(c) => f.(mode := c.mode, relayServerAddress := c.relayServerAddress, accountID := c.accountID, encryptionKey := c.encryptionKey)
  }

  /** Reopening the panel after Save shows the form as it was saved, flagged key included. */
  lemma LoadSave(f: Form)
    ensures Load(Some(Save(f)), f) == f
    ensures KeyFieldInvalid(Load(Some(Save(f)), f).encryptionKey) == KeyFieldInvalid(f.encryptionKey)
  {
  }
}

=== FILE: hex_codec.dfy ===
/**
  The hex codec of `src/service_worker/utils.ts`: `hexToUint8Array` and
  `uint8arrayToHex`, together with the parts of JavaScript they rely on
  (`parseInt(_, 16)`, storing a number into a `Uint8Array`,
  `Number.prototype.toString(16)` and `String.prototype.padStart`).
*/
module HexCodec {
  import opened Base

  /** The error `hexToUint8Array` throws ("Invalid hex string"). */
  datatype HexError = InvalidHexString

  predicate IsHexDigit(c: char) {
    ('0' <= c <= '9') || ('a' <= c <= 'f') || ('A' <= c <= 'F')
  }

  predicate IsLowerHexDigit(c: char) {
    ('0' <= c <= '9') || ('a' <= c <= 'f')
  }

  predicate AllHex(s: string) {
    forall i :: 0 <= i < |s| ==> IsHexDigit(s[i])
  }

  predicate AllLowerHex(s: string) {
    forall i :: 0 <= i < |s| ==> IsLowerHexDigit(s[i])
  }

  /** The base-16 value of one digit, either case. */
  function DigitValue(c: char): (v: nat)
    requires IsHexDigit(c)
    ensures v < 16
  {
    if c <= '9' then c as int - '0' as int
    else if c <= 'F' then c as int - 'A' as int + 10
    else c as int - 'a' as int + 10
  }

  /** The lowercase digit JavaScript prints for a value below 16. */
  function Digit(v: nat): (c: char)
    requires v < 16
    ensures IsLowerHexDigit(c) && DigitValue(c) == v
  {
    if v < 10 then ('0' as int + v) as char else ('a' as int + v - 10) as char
  }

  /** ASCII lowercasing, which is all `toLowerCase` does to hex digits. */
  function AsciiLower(c: char): char {
    if 'A' <= c <= 'Z' then (c as int + 32) as char else c
  }

  function LowerString(s: string): (r: string)
    ensures |r| == |s|
    ensures forall i :: 0 <= i < |s| ==> r[i] == AsciiLower(s[i])
  {
    seq(|s|, i requires 0 <= i < |s| => AsciiLower(s[i]))
  }

  /** Printing a digit back gives the digit in lowercase. */
  lemma DigitOfValue(c: char)
    requires IsHexDigit(c)
    ensures Digit(DigitValue(c)) == AsciiLower(c)
  {
  }

  // ---------------------------------------------------------------------------
  // parseInt(s, 16)
  // ---------------------------------------------------------------------------

  /** The characters ECMAScript's `StrWhiteSpaceChar` admits (white space and line terminators). */
  predicate IsJsWhiteSpace(c: char) {
    c == '\t' || c == '\n' || c == '\U{B}' || c == '\U{C}' || c == '\r' || c == ' '
    || c == '\U{A0}' || c == '\U{1680}' || ('\U{2000}' <= c <= '\U{200A}')
    || c == '\U{2028}' || c == '\U{2029}' || c == '\U{202F}' || c == '\U{205F}'
    || c == '\U{3000}' || c == '\U{FEFF}'
  }

  /** `parseInt` first drops leading white space. */
  function TrimStart(s: string): (r: string)
    ensures |r| <= |s| && r == s[|s| - |r|..]
    ensures |r| > 0 ==> !IsJsWhiteSpace(r[0])
  {
    if |s| > 0 && IsJsWhiteSpace(s[0]) then TrimStart(s[1..]) else s
  }

  /** Length of the longest prefix made of hex digits. */
  function HexRunLength(s: string): (n: nat)
    ensures n <= |s|
    ensures AllHex(s[..n])
    ensures n < |s| ==> !IsHexDigit(s[n])
  {
    if |s| > 0 && IsHexDigit(s[0]) then
      var n := 1 + HexRunLength(s[1..]);
      assert s[..n] == [s[0]] + s[1..][..n - 1];
      n
    else 0
  }

  /** The value of a string of hex digits read most significant first. */
  function HexValue(d: string): nat
    requires AllHex(d)
  {
    if |d| == 0 then 0 else 16 * HexValue(d[..|d| - 1]) + DigitValue(d[|d| - 1])
  }

  /** The sign `parseInt` reads from the trimmed text. */
  function SignOf(t: string): int {
    if |t| > 0 && t[0] == '-' then -1 else 1
  }

  /** The trimmed text after one optional `+` or `-`. */
  function StripSign(t: string): string {
    if |t| > 0 && (t[0] == '+' || t[0] == '-') then t[1..] else t
  }

  /** With radix 16, `parseInt` also drops a `0x` or `0X` prefix. */
  function StripRadixPrefix(u: string): string {
    if |u| >= 2 && u[0] == '0' && (u[1] == 'x' || u[1] == 'X') then u[2..] else u
  }

  /** The signed value of the leading run of digits, `NaN` when the run is empty. */
  function ReadDigits(sign: int, v: string): Option<int> {
    var n := HexRunLength(v);
    if n == 0 then None else Some(sign * HexValue(v[..n]))
  }

  /**
    `parseInt(s, 16)`, with `None` standing for `NaN`: skip white space, take
    one optional sign, drop an optional `0x`/`0X` prefix, then read the longest
    run of hex digits; an empty run is `NaN`.
  */
  function ParseIntHex(s: string): Option<int> {
    var t := TrimStart(s);
    ReadDigits(SignOf(t), StripRadixPrefix(StripSign(t)))
  }

  /** Storing a number into a `Uint8Array` element: `NaN` becomes 0, anything else is taken modulo 256. */
  function ToUint8(x: Option<int>): Byte {
    match x
    case None => 0
    case Some(n) => n % 256
  }

  /** A hex digit is not white space. */
  lemma HexDigitNotSpace(c: char)
    requires IsHexDigit(c)
    ensures !IsJsWhiteSpace(c)
  {
  }

  /** Text that starts with a digit and no `0x` prefix is read as it stands, unsigned. */
  lemma ParseUnsigned(s: string)
    requires |s| > 0 && IsHexDigit(s[0])
    requires !(|s| >= 2 && s[0] == '0' && (s[1] == 'x' || s[1] == 'X'))
    ensures ParseIntHex(s) == ReadDigits(1, s)
  {
    HexDigitNotSpace(s[0]);
    assert TrimStart(s) == s;
    assert SignOf(s) == 1 && StripSign(s) == s && StripRadixPrefix(s) == s;
  }

  /** The value of a single digit. */
  lemma HexValueOne(a: char)
    requires IsHexDigit(a)
    ensures HexValue([a]) == DigitValue(a)
  {
    assert [a][..0] == [];
  }

  lemma RunOfTwoDigits(a: char, b: char)
    requires IsHexDigit(a) && IsHexDigit(b)
    ensures HexRunLength([a, b]) == 2
  {
    assert [a, b][1..] == [b];
    assert [b][1..] == [];
  }

  lemma ValueOfTwoDigits(a: char, b: char)
    requires IsHexDigit(a) && IsHexDigit(b)
    ensures HexValue([a, b]) == 16 * DigitValue(a) + DigitValue(b)
  {
    assert [a, b][..1] == [a];
    HexValueOne(a);
  }

  /** Two hex digits parse to their two-digit base-16 value. */
  lemma ParsePairOfDigits(a: char, b: char)
    requires IsHexDigit(a) && IsHexDigit(b)
    ensures ToUint8(ParseIntHex([a, b])) == 16 * DigitValue(a) + DigitValue(b)
  {
    var s := [a, b];
    ParseUnsigned(s);
    RunOfTwoDigits(a, b);
    ValueOfTwoDigits(a, b);
    assert s[..2] == s;
    var v := HexValue(s);
    assert ReadDigits(1, s) == Some(v);
    SmallByte(v);
  }

  lemma SmallByte(v: int)
    requires 0 <= v < 256
    ensures ToUint8(Some(v)) == v
  {
  }

  // ---------------------------------------------------------------------------
  // hexToUint8Array
  // ---------------------------------------------------------------------------

  /** What `parseInt(s.substr(2k, 2), 16)` stores into element `k` of the result. */
  function PairAt(s: string, k: nat): Byte
    requires 2 * k + 2 <= |s|
  {
    ToUint8(ParseIntHex(s[2 * k..2 * k + 2]))
  }

  /**
    `hexToUint8Array`: an odd-length string throws; otherwise byte `k` is what
    `parseInt` makes of characters `2k` and `2k+1`, stored into a `Uint8Array`.
  */
  function HexToBytes(s: string): (r: Result<seq<Byte>, HexError>)
    ensures r.Failure? <==> |s| % 2 != 0
    ensures r.Success? ==> |r.value| * 2 == |s|
  {
    if |s| % 2 != 0 then Failure(InvalidHexString)
    else Success(seq(|s| / 2, k requires 0 <= k < |s| / 2 => PairAt(s, k)))
  }

  /** Two hex digits at positions `2k`, `2k+1` give their two-digit base-16 value. */
  lemma {:induction false} PairAtOfHex(s: string, k: nat)
    requires 2 * k + 2 <= |s| && IsHexDigit(s[2 * k]) && IsHexDigit(s[2 * k + 1])
    ensures PairAt(s, k) == 16 * DigitValue(s[2 * k]) + DigitValue(s[2 * k + 1])
  {
    assert s[2 * k..2 * k + 2] == [s[2 * k], s[2 * k + 1]];
    ParsePairOfDigits(s[2 * k], s[2 * k + 1]);
  }

  /** On hex digits, byte `k` is the base-16 value of characters `2k` and `2k+1`. */
  lemma {:induction false} HexToBytesOfHex(s: string)
    requires |s| % 2 == 0 && AllHex(s)
    ensures HexToBytes(s).Success?
    ensures forall k :: 0 <= k < |s| / 2 ==>
      HexToBytes(s).value[k] == 16 * DigitValue(s[2 * k]) + DigitValue(s[2 * k + 1])
  {
    forall k | 0 <= k < |s| / 2
      ensures HexToBytes(s).value[k] == 16 * DigitValue(s[2 * k]) + DigitValue(s[2 * k + 1])
    {
      PairAtOfHex(s, k);
    }
  }

  /** Two digits that lowercase alike have the same value. */
  lemma SameLowerSameValue(c: char, d: char)
    requires IsHexDigit(c) && IsHexDigit(d) && AsciiLower(c) == AsciiLower(d)
    ensures DigitValue(c) == DigitValue(d)
  {
    DigitOfValue(c);
    DigitOfValue(d);
  }

  lemma {:induction false} PairAtIgnoresCase(s: string, t: string, k: nat)
    requires 2 * k + 2 <= |s| == |t| && AllHex(s) && AllHex(t)
    requires AsciiLower(s[2 * k]) == AsciiLower(t[2 * k]) && AsciiLower(s[2 * k + 1]) == AsciiLower(t[2 * k + 1])
    ensures PairAt(s, k) == PairAt(t, k)
  {
    PairAtOfHex(s, k);
    PairAtOfHex(t, k);
    SameLowerSameValue(s[2 * k], t[2 * k]);
    SameLowerSameValue(s[2 * k + 1], t[2 * k + 1]);
  }

  /** Upper- and lower-case spellings of the same digits decode to the same bytes. */
  lemma {:induction false} HexToBytesIgnoresCase(s: string, t: string)
    requires AllHex(s) && |s| == |t|
    requires forall i :: 0 <= i < |s| ==> AsciiLower(s[i]) == AsciiLower(t[i])
    ensures HexToBytes(s) == HexToBytes(t)
  {
    assert AllHex(t) by {
      forall i | 0 <= i < |t| ensures IsHexDigit(t[i]) {
        assert AsciiLower(s[i]) == AsciiLower(t[i]);
      }
    }
    if |s| % 2 == 0 {
      var bs, bt := HexToBytes(s).value, HexToBytes(t).value;
      forall k | 0 <= k < |bs| ensures bs[k] == bt[k] {
        PairIndex(2 * k, |s|);
        PairAtIgnoresCase(s, t, k);
      }
      assert bs == bt;
    }
  }

  // ---------------------------------------------------------------------------
  // uint8arrayToHex
  // ---------------------------------------------------------------------------

  /** `n.toString(16)`: base-16 digits without leading zeros. */
  function ToRadix16(n: nat): (r: string)
    ensures |r| >= 1
  {
    if n < 16 then [Digit(n)] else ToRadix16(n / 16) + [Digit(n % 16)]
  }

  /** `s.padStart(width, fill)` for a one-character fill. */
  function PadStart(s: string, width: nat, fill: char): (r: string)
    ensures |r| == if |s| >= width then |s| else width
  {
    if |s| >= width then s else seq(width - |s|, _ => fill) + s
  }

  /** `b.toString(16).padStart(2, "0")`: always two lowercase digits, high nibble first. */
  function ByteToHex(b: Byte): (r: string)
    ensures r == [Digit(b / 16), Digit(b % 16)]
  {
    var d := ToRadix16(b);
    assert b < 16 ==> d == [Digit(b)];
    assert b >= 16 ==> d == [Digit(b / 16)] + [Digit(b % 16)] by {
      if b >= 16 { assert ToRadix16(b / 16) == [Digit(b / 16)]; }
    }
    PadStart(d, 2, '0')
  }

  /**
    `uint8arrayToHex`: the loop appends each byte's two digits, so the result
    has two characters per byte and they spell the bytes in order.
  */
  function BytesToHex(b: seq<Byte>): (r: string)
    ensures |r| == 2 * |b|
    ensures AllLowerHex(r)
    ensures forall k :: 0 <= k < |b| ==> r[2 * k] == Digit(b[k] / 16) && r[2 * k + 1] == Digit(b[k] % 16)
  {
    if |b| == 0 then "" else BytesToHex(b[..|b| - 1]) + ByteToHex(b[|b| - 1])
  }

  lemma LowerHexIsHex(s: string)
    requires AllLowerHex(s)
    ensures AllHex(s)
  {
  }

  /** The two digits printed for a byte read back as that byte. */
  lemma ByteDigitsValue(x: Byte)
    ensures 16 * DigitValue(Digit(x / 16)) + DigitValue(Digit(x % 16)) == x
  {
  }

  /** Encoding then decoding gives back the bytes. */
  lemma {:induction false} DecodeEncode(b: seq<Byte>)
    ensures HexToBytes(BytesToHex(b)) == Success(b)
  {
    var h := BytesToHex(b);
    var d := HexToBytes(h).value;
    forall k | 0 <= k < |b| ensures d[k] == b[k] {
      assert h[2 * k] == Digit(b[k] / 16) && h[2 * k + 1] == Digit(b[k] % 16);
      PairAtOfHex(h, k);
      ByteDigitsValue(b[k]);
    }
    assert d == b;
  }

  /** A two-digit base-16 value splits back into its digits. */
  lemma Nibbles(hi: nat, lo: nat)
    requires hi < 16 && lo < 16
    ensures (16 * hi + lo) / 16 == hi && (16 * hi + lo) % 16 == lo
  {
  }

  /** Characters `2k` and `2k+1` of the re-encoding are the lowercased input digits. */
  lemma {:induction false} ReencodedPair(s: string, k: nat)
    requires AllHex(s) && 2 * k + 2 <= |s|
    ensures Digit(PairAt(s, k) / 16) == AsciiLower(s[2 * k])
    ensures Digit(PairAt(s, k) % 16) == AsciiLower(s[2 * k + 1])
  {
    PairAtOfHex(s, k);
    DigitsOfValue(PairAt(s, k), s[2 * k], s[2 * k + 1]);
  }

  /** The two digits printed for a two-digit value are its digits, lowercased. */
  lemma DigitsOfValue(p: int, c: char, d: char)
    requires IsHexDigit(c) && IsHexDigit(d) && p == 16 * DigitValue(c) + DigitValue(d)
    ensures Digit(p / 16) == AsciiLower(c) && Digit(p % 16) == AsciiLower(d)
  {
    Nibbles(DigitValue(c), DigitValue(d));
    DigitOfValue(c);
    DigitOfValue(d);
  }

  /** Decoding an even-length hex string then encoding gives back the string in lowercase. */
  lemma {:induction false} EncodeDecode(s: string)
    requires |s| % 2 == 0 && AllHex(s)
    ensures HexToBytes(s).Success?
    ensures BytesToHex(HexToBytes(s).value) == LowerString(s)
  {
    var b := HexToBytes(s).value;
    var h := BytesToHex(b);
    forall i | 0 <= i < |s| ensures h[i] == AsciiLower(s[i]) {
      ReencodedChar(s, i);
    }
    assert h == LowerString(s);
  }

  /** Character `i` of an even-length string lies in pair `i / 2`. */
  lemma PairIndex(i: nat, n: nat)
    requires n % 2 == 0 && i < n
    ensures 2 * (i / 2) + 2 <= n && i / 2 < n / 2
    ensures i == 2 * (i / 2) || i == 2 * (i / 2) + 1
  {
  }

  /** Character `i` of the re-encoding is character `i` of the input, lowercased. */
  lemma {:induction false} ReencodedChar(s: string, i: nat)
    requires |s| % 2 == 0 && AllHex(s) && i < |s|
    ensures HexToBytes(s).Success? && |BytesToHex(HexToBytes(s).value)| == |s|
    ensures BytesToHex(HexToBytes(s).value)[i] == AsciiLower(s[i])
  {
    var b := HexToBytes(s).value;
    var h := BytesToHex(b);
    var k := i / 2;
    PairIndex(i, |s|);
    assert b[k] == PairAt(s, k);
    ReencodedPair(s, k);
    assert h[2 * k] == Digit(b[k] / 16) && h[2 * k + 1] == Digit(b[k] % 16);
    assert i == 2 * k || i == 2 * k + 1;
  }

  /** A two-character input decodes to the one byte `parseInt` reads from it. */
  lemma {:induction false} HexToBytesOfPair(s: string)
    requires |s| == 2
    ensures HexToBytes(s) == Success([PairAt(s, 0)])
  {
    assert |s| / 2 == 1;
    var r := HexToBytes(s).value;
    assert r[0] == PairAt(s, 0);
    assert r == [PairAt(s, 0)];
  }

  /** A two-character input whose `parseInt` value is known decodes to that value's byte. */
  lemma {:induction false} HexToBytesOfParsedPair(s: string, v: Option<int>)
    requires |s| == 2 && ParseIntHex(s) == v
    ensures HexToBytes(s) == Success([ToUint8(v)])
  {
    assert s[0..2] == s;
    HexToBytesOfPair(s);
  }

  lemma ParseDigitThenOther(a: char, c: char)
    requires IsHexDigit(a) && !IsHexDigit(c) && !(a == '0' && (c == 'x' || c == 'X'))
    ensures ParseIntHex([a, c]) == Some(DigitValue(a))
  {
    var s := [a, c];
    ParseUnsigned(s);
    assert HexRunLength(s[1..]) == 0;
    assert HexRunLength(s) == 1;
    assert s[..1] == [a];
    HexValueOne(a);
  }

  lemma ParseNoDigit(a: char, c: char)
    requires !IsHexDigit(a) && !IsJsWhiteSpace(a) && a != '+' && a != '-'
    ensures ParseIntHex([a, c]) == None
  {
    var s := [a, c];
    assert TrimStart(s) == s;
    assert StripRadixPrefix(StripSign(s)) == s;
    assert HexRunLength(s) == 0;
  }

  lemma ParseRadixPrefixAlone(c: char)
    requires c == 'x' || c == 'X'
    ensures ParseIntHex(['0', c]) == None
  {
    var s := ['0', c];
    assert TrimStart(s) == s;
    assert StripRadixPrefix(StripSign(s)) == [];
  }

  lemma ParseMinusDigit(d: char)
    requires IsHexDigit(d)
    ensures ParseIntHex(['-', d]) == Some(-(DigitValue(d) as int))
  {
    var s := ['-', d];
    assert !IsJsWhiteSpace('-');
    assert TrimStart(s) == s;
    assert StripRadixPrefix(StripSign(s)) == [d];
    assert HexRunLength([d][1..]) == 0;
    assert HexRunLength([d]) == 1;
    assert [d][..1] == [d];
    HexValueOne(d);
  }

  /** The parse is lenient: a digit followed by a non-digit keeps the digit (`"1g"` gives 1). */
  lemma DigitThenNonDigit(a: char, c: char)
    requires IsHexDigit(a) && !IsHexDigit(c)
    ensures HexToBytes([a, c]) == Success([DigitValue(a)])
  {
    var v := DigitValue(a);
    if a == '0' && (c == 'x' || c == 'X') {
      ParseRadixPrefixAlone(c);
      HexToBytesOfParsedPair([a, c], None);
      assert v == 0;
    } else {
      ParseDigitThenOther(a, c);
      HexToBytesOfParsedPair([a, c], Some(v));
      assert ToUint8(Some(v)) == v;
    }
  }

  /** A pair that starts with neither a digit, white space nor a sign is `NaN`, stored as 0 (`"zz"` gives 0). */
  lemma NoDigitIsZero(a: char, c: char)
    requires !IsHexDigit(a) && !IsJsWhiteSpace(a) && a != '+' && a != '-'
    ensures HexToBytes([a, c]) == Success([0])
  {
    ParseNoDigit(a, c);
    HexToBytesOfParsedPair([a, c], None);
  }

  /** Storing a negated digit value wraps it modulo 256. */
  lemma NegatedDigitByte(v: nat)
    requires v < 16
    ensures ToUint8(Some(-(v as int))) == if v == 0 then 0 else 256 - v
  {
  }

  lemma MinusPair(d: char)
    requires IsHexDigit(d)
    ensures HexToBytes(['-', d]) == Success([ToUint8(Some(-(DigitValue(d) as int)))])
  {
    ParseMinusDigit(d);
    HexToBytesOfParsedPair(['-', d], Some(-(DigitValue(d) as int)));
  }

  /** A minus sign negates and the store wraps modulo 256 (`"-1"` gives 255). */
  lemma MinusSignWraps(d: char)
    requires IsHexDigit(d)
    ensures HexToBytes(['-', d]) == Success([if DigitValue(d) == 0 then 0 else 256 - DigitValue(d)])
  {
    MinusPair(d);
    NegatedDigitByte(DigitValue(d));
  }
}

=== FILE: loop_facts.dfy ===
/**
  The connect loop and the configuration handler (index.ts lines 90-263):
  how a loop retries, when it stops, what a configuration change does, and
  the stale-loop defect of the change handler together with its correction.
*/
module LoopFacts {
  import opened Base
  import opened HexCodec
  import opened Envelope
  import opened Gui
  import opened Coordinator
  import Address

  // ---------------------------------------------------------------------------
  // One loop
  // ---------------------------------------------------------------------------

  /**
    A failed `connect` is swallowed; after the backoff the loop calls
    `connect` again with the same address split the same way.
  */
  lemma FailedConnectRetries(o: Oracles, s: State, id: nat)
    requires IsPhase(s, id, Connecting) && s.loops[id].ctrl !in s.aborted
    ensures var a := s.loops[id].config.relayServerAddress;
      var r := Step(o, Step(o, s, ConnectSettled(id, false)), BackoffElapsed(id));
      && IsPhase(r, id, Connecting)
      && r.log == s.log + [StatusWrite(|s.sPorts|, s.connection.Some?), ConnectCall(id, Address.Url(a), Address.Hash(a))]
  {
  }

  /** A loop whose controller was aborted during the backoff returns at the top of the next iteration, silently. */
  lemma AbortedLoopStops(o: Oracles, s: State, id: nat)
    requires IsPhase(s, id, BackingOff) && s.loops[id].ctrl in s.aborted
    ensures var r := Step(o, s, BackoffElapsed(id));
      r.log == s.log && id !in r.loops
  {
  }

  /**
    The abort flag is checked only at the top of an iteration: a `connect`
    already in flight that succeeds takes over `connection` even though its
    controller was aborted meanwhile.
  */
  lemma AbortNotCheckedAfterConnect(o: Oracles, s: State, id: nat)
    requires IsPhase(s, id, Connecting) && s.loops[id].ctrl in s.aborted
    ensures Step(o, s, ConnectSettled(id, true)).connection == Some(s.next)
  {
  }

  /**
    Nor is it checked after the key import: an address change that closes
    the connection while `importKey` is pending leaves the loop running, and
    when the import settles it creates a client on the closed connection and
    registers the account on it. This holds for either change handler.
  */
  lemma ImportOutlivesTeardown(o: Oracles, s: State, id: nat, before: Option<Config>, after: Option<Config>, abortOnClose: bool)
    requires id in s.loops && s.loops[id].phase.Importing? && id < s.next
    requires s.connection.Some? && o.importKey(s.loops[id].phase.raw).Some?
    requires KeyText(before) == KeyText(after) && AddressText(before) != AddressText(after)
    ensures var r := ConfigChange(o, s, before, after, abortOnClose);
      var r' := OnImportSettled(o, r, id);
      && r.dt.None? && CloseConnection(s.connection.value) in r.log[|s.log|..]
      && r'.dt.Some? && r'.connection == s.connection && IsPhase(r', id, Registering)
      && r'.log == r.log + [RegisterInput(Some(s.loops[id].config.accountID))]
  {
    var t := Teardown(s, abortOnClose);
    assert t.log[|s.log|..] == [CloseConnection(s.connection.value)];
    var r := Restart(t, after);
    AddressOnlyChange(o, s, before, after, abortOnClose);
    assert r.dt == t.dt && r.connection == t.connection;
    assert r.log[..|t.log|] == t.log;
    assert r.log[|s.log|..][0] == CloseConnection(s.connection.value);
    assert r.loops[id] == s.loops[id];
  }

  /** With the key unchanged, an address change is a teardown followed by a restart. */
  lemma AddressOnlyChange(o: Oracles, s: State, before: Option<Config>, after: Option<Config>, abortOnClose: bool)
    requires KeyText(before) == KeyText(after) && AddressText(before) != AddressText(after)
    ensures ConfigChange(o, s, before, after, abortOnClose) == Restart(Teardown(s, abortOnClose), after)
  {
  }

  /** `registerInput` answering `false` ends the loop with an error before `registerInputTab` is called. */
  lemma RegisterRefusedSkipsTabs(o: Oracles, s: State, id: nat)
    requires IsPhase(s, id, Registering)
    ensures var r := Step(o, s, RegisterSettled(id, false));
      r.log == s.log + [Threw(RegisterInputFalse)] && id !in r.loops
  {
  }

  /**
    The `connect` call takes the address up to the first `'!'` as URL and the
    text between the first and second `'!'` as the public-key hash; an address
    without `'!'` is the URL itself, with an empty hash.
  */
  lemma ConnectTargetsAddress(s: State, c: Config)
    requires Connectable(c) && s.haltLoop !in s.aborted
    ensures var r := OnInitialConfig(s, Some(c));
      var a := c.relayServerAddress;
      && r.log[|r.log| - 1] == ConnectCall(s.next, Address.TakeUntil(a, Address.Bang), Address.Hash(a))
      && (Address.Bang !in a ==> r.log[|r.log| - 1] == ConnectCall(s.next, a, ""))
  {
    Address.UrlAndHash(c.relayServerAddress);
  }

  /** A stored config missing any of address, account or key starts no loop at startup. */
  lemma IncompleteConfigDoesNotConnect(s: State, c: Config)
    requires c.relayServerAddress == "" || c.accountID == "" || c.encryptionKey == ""
    ensures OnInitialConfig(s, Some(c)) == s
  {
  }

  // ---------------------------------------------------------------------------
  // The change handler
  // ---------------------------------------------------------------------------

  /** A change that touches neither key nor address (say, only the account or the mode) does nothing. */
  lemma UnrelatedChangeIgnored(o: Oracles, s: State, before: Option<Config>, after: Option<Config>)
    requires KeyText(before) == KeyText(after) && AddressText(before) == AddressText(after)
    ensures OnConfigChangedAsWritten(o, s, before, after) == s
    ensures OnConfigChanged(o, s, before, after) == s
  {
  }

  /**
    A changed key that fails to decode or import throws before the address
    is looked at: nothing is torn down and no loop is started, even when the
    address changed too.
  */
  lemma KeyFailureStopsHandler(o: Oracles, s: State, before: Option<Config>, after: Option<Config>, abortOnClose: bool)
    requires KeyText(before) != KeyText(after) && ReimportKey(o, s, after).Failure?
    ensures ConfigChange(o, s, before, after, abortOnClose) == s.(log := s.log + [Threw(ReimportKey(o, s, after).error)])
  {
  }

  /**
    Save stores whatever key the panel holds. Saving a changed key throws
    "Invalid hex string" in the service worker exactly when it has odd length,
    and then nothing else happens; every odd-length key is one the panel
    flags, while a flagged key of even length decodes leniently and reaches
    `importKey`.
  */
  lemma SavedKeyInvalidHexIffOdd(o: Oracles, s: State, before: Option<Config>, f: Form, abortOnClose: bool)
    requires KeyText(before) != Some(f.encryptionKey)
    ensures |f.encryptionKey| % 2 != 0 ==> KeyFieldInvalid(f.encryptionKey)
    ensures var r := ConfigChange(o, s, before, Some(Save(f)), abortOnClose);
      && (Threw(InvalidHex) in r.log[|s.log|..] <==> |f.encryptionKey| % 2 != 0)
      && (|f.encryptionKey| % 2 != 0 ==> r == s.(log := s.log + [Threw(InvalidHex)]))
  {
    var c := Save(f);
    if ReimportKey(o, s, Some(c)).Failure? {
      KeyFailureThrowsOnce(o, s, before, Some(c), abortOnClose);
    } else {
      ImportedChangeThrowsNothing(o, s, before, Some(c), abortOnClose);
    }
  }

  /** A changed key that fails to import adds exactly the one `Threw` of its failure. */
  lemma KeyFailureThrowsOnce(o: Oracles, s: State, before: Option<Config>, after: Option<Config>, abortOnClose: bool)
    requires KeyText(before) != KeyText(after) && ReimportKey(o, s, after).Failure?
    ensures var r := ConfigChange(o, s, before, after, abortOnClose);
      r.log[|s.log|..] == [Threw(ReimportKey(o, s, after).error)] && r == s.(log := s.log + [Threw(ReimportKey(o, s, after).error)])
  {
    KeyFailureStopsHandler(o, s, before, after, abortOnClose);
  }

  /** What a settled change may log: closing the connection, a status write and a `connect` call. */
  predicate Quiet(a: Action) {
    a.CloseConnection? || a.StatusWrite? || a.ConnectCall?
  }

  /** A change whose key imports (or stays) never throws: it only closes, writes a status and connects. */
  lemma ImportedChangeThrowsNothing(o: Oracles, s: State, before: Option<Config>, after: Option<Config>, abortOnClose: bool)
    requires KeyText(before) == KeyText(after) || ReimportKey(o, s, after).Success?
    ensures var r := ConfigChange(o, s, before, after, abortOnClose);
      && s.log <= r.log
      && (forall i :: |s.log| <= i < |r.log| ==> Quiet(r.log[i]))
      && (forall i :: |s.log| <= i < |r.log| ==> !r.log[i].Threw?)
  {
    var s1 := if KeyText(after) != KeyText(before) then ReimportKey(o, s, after).value else s;
    assert s1.log == s.log;
    if AddressText(after) != AddressText(before) {
      var t := Teardown(s1, abortOnClose);
      assert ConfigChange(o, s, before, after, abortOnClose) == Restart(t, after);
      RestartOnlyConnects(t, after);
      assert t.log == s.log || t.log == s.log + [CloseConnection(s.connection.value)];
    }
  }

  /** Restarting the loop only writes a status and calls `connect`. */
  lemma RestartOnlyConnects(s: State, after: Option<Config>)
    ensures var r := Restart(s, after);
      s.log <= r.log && forall i :: |s.log| <= i < |r.log| ==> r.log[i].StatusWrite? || r.log[i].ConnectCall?
  {
    var r := Restart(s, after);
    if r.log != s.log {
      assert after.Some? && Connectable(after.value);
      var s1 := s.(haltLoop := s.next, next := s.next + 1);
      assert r == StartLoop(s1, after.value, s.next);
      assert |r.log| == |s.log| + 2 && r.log[|s.log|].StatusWrite? && r.log[|s.log| + 1].ConnectCall?;
    }
  }

  /** A changed key that imports becomes the current key at once. */
  lemma KeyChangeImports(o: Oracles, s: State, before: Option<Config>, c: Config, k: Key, abortOnClose: bool)
    requires KeyText(before) != Some(c.encryptionKey)
    requires HexToBytes(c.encryptionKey).Success? && o.importKey(HexToBytes(c.encryptionKey).value) == Some(k)
    ensures ConfigChange(o, s, before, Some(c), abortOnClose).key == Some(k)
  {
  }

  /** A key-only change imports the new key in place: no teardown, no new controller, nothing logged. */
  lemma KeyOnlyChange(o: Oracles, s: State, before: Option<Config>, c: Config, k: Key)
    requires KeyText(before) != Some(c.encryptionKey) && AddressText(before) == Some(c.relayServerAddress)
    requires HexToBytes(c.encryptionKey).Success? && o.importKey(HexToBytes(c.encryptionKey).value) == Some(k)
    ensures OnConfigChangedAsWritten(o, s, before, Some(c)) == s.(key := Some(k))
    ensures OnConfigChanged(o, s, before, Some(c)) == s.(key := Some(k))
  {
  }

  /** An unchanged key is not imported again: the current key stays and no key error can be thrown. */
  lemma UnchangedKeyKept(o: Oracles, s: State, before: Option<Config>, after: Option<Config>, abortOnClose: bool)
    requires KeyText(before) == KeyText(after)
    ensures var r := ConfigChange(o, s, before, after, abortOnClose);
      r.key == s.key && forall i :: |s.log| <= i < |r.log| ==> !r.log[i].Threw?
  {
    ImportedChangeThrowsNothing(o, s, before, after, abortOnClose);
  }

  /**
    An address change with no connection aborts the pending loop's
    controller, makes a fresh one and, for a complete config, starts a loop
    under it that calls `connect` with the new address.
  */
  lemma AddressChangeWithoutConnection(o: Oracles, s: State, before: Option<Config>, c: Config)
    requires KeyText(before) == Some(c.encryptionKey) && AddressText(before) != Some(c.relayServerAddress)
    requires s.connection.None? && s.haltLoop < s.next && forall a :: a in s.aborted ==> a < s.next
    ensures var r := OnConfigChangedAsWritten(o, s, before, Some(c));
      && r.aborted == s.aborted + {s.haltLoop}
      && r.haltLoop == s.next
      && (Connectable(c) ==>
            && IsPhase(r, s.next + 1, Connecting) && r.loops[s.next + 1].ctrl == r.haltLoop
            && r.log[|r.log| - 1] == ConnectCall(s.next + 1, Address.Url(c.relayServerAddress), Address.Hash(c.relayServerAddress)))
      && (!Connectable(c) ==> r.loops == s.loops && r.log == s.log)
  {
  }

  /**
    As written, an address change with a connection closes it and drops the
    client with its handlers, but leaves the current controller un-aborted.
  */
  lemma AddressChangeWithConnectionAsWritten(o: Oracles, s: State, before: Option<Config>, after: Option<Config>)
    requires KeyText(before) == KeyText(after) && AddressText(before) != AddressText(after)
    requires s.connection.Some?
    ensures var r := OnConfigChangedAsWritten(o, s, before, after);
      && CloseConnection(s.connection.value) in r.log[|s.log|..]
      && r.dt.None?
      && (s.dt.Some? ==> s.dt.value !in r.listening)
      && r.aborted == s.aborted
      && r.haltLoop == s.next
  {
    var t := Teardown(s, false);
    var r := Restart(t, after);
    assert r.log[|s.log|] == CloseConnection(s.connection.value);
  }

  /**
    The corrected handler differs from the one as written only in also
    aborting the previous controller when a connection exists.
  */
  lemma CorrectionOnlyAborts(o: Oracles, s: State, before: Option<Config>, after: Option<Config>)
    requires s.haltLoop < s.next
    ensures var fixed := OnConfigChanged(o, s, before, after);
      var written := OnConfigChangedAsWritten(o, s, before, after);
      var imports := KeyText(after) == KeyText(before) || ReimportKey(o, s, after).Success?;
      if imports && AddressText(after) != AddressText(before) && s.connection.Some?
      then fixed == written.(aborted := written.aborted + {s.haltLoop}) && written.aborted == s.aborted
      else fixed == written
  {
    var imported := if KeyText(after) != KeyText(before) then ReimportKey(o, s, after) else Success(s);
    if imported.Success? && AddressText(after) != AddressText(before) {
      var s1 := imported.value;
      var t := Teardown(s1, false);
      if s1.connection.Some? {
        assert Teardown(s1, true) == t.(aborted := t.aborted + {s.haltLoop});
        RestartIgnoresOldAbort(t, after, s.haltLoop);
      }
    }
  }

  /** Aborting a controller other than the one `Restart` creates does not change what it does. */
  lemma RestartIgnoresOldAbort(s: State, after: Option<Config>, c: nat)
    requires c != s.next
    ensures Restart(s.(aborted := s.aborted + {c}), after) == Restart(s, after).(aborted := s.aborted + {c})
  {
  }

  // ---------------------------------------------------------------------------
  // Controlled loops
  // ---------------------------------------------------------------------------

  /**
    Every suspended connect loop runs under the current controller or under
    an aborted one, and controller ids are below the fresh-id counter.
  */
  predicate Controlled(s: State) {
    && s.haltLoop < s.next
    && (forall c :: c in s.aborted ==> c < s.next)
    && (forall id :: id in s.loops ==> s.loops[id].ctrl == s.haltLoop || s.loops[id].ctrl in s.aborted)
  }

  lemma InitControlled()
    ensures Controlled(Init())
  {
  }

  /** The settling of a loop's own awaits and the startup read keep each loop's controller. */
  predicate KeepsControllers(s: State, r: State) {
    && r.haltLoop == s.haltLoop && r.aborted == s.aborted && r.next >= s.next
    && (forall id :: id in r.loops ==> (id in s.loops && r.loops[id].ctrl == s.loops[id].ctrl) || r.loops[id].ctrl == s.haltLoop)
  }

  /** Events that are not about the connect loop leave its state alone. */
  lemma TabEventsKeepLoops(o: Oracles, s: State, e: Event)
    requires e.Attach? || e.Detach? || e.PortMessage? || e.EncryptSettled? || e.RequestSpecificData?
      || e.InjData? || e.ResumeFailed? || e.KeepAlive?
    ensures var r := Step(o, s, e);
      r.haltLoop == s.haltLoop && r.aborted == s.aborted && r.loops == s.loops && r.next >= s.next
  {
    match e
    case Attach(name) =>
    case Detach(p) =>
    case PortMessage(p, msg) =>
    case EncryptSettled =>
    case RequestSpecificData(c, id, data, nonce, qos) =>
    case InjData(c, qos, data, tabID, pick) =>
    case ResumeFailed(conn, acct) =>
    case KeepAlive =>
  }

  lemma LoopEventsKeepControllers(o: Oracles, s: State, e: Event)
    requires e.InitialConfig? || e.ConnectSettled? || e.ImportSettled? || e.BackoffElapsed? || e.RegisterSettled?
      || e.RegisterTabsSettled?
    ensures KeepsControllers(s, Step(o, s, e))
  {
    match e
    case InitialConfig(c) => InitialConfigKeepsControllers(s, c);
    case ConnectSettled(id, ok) => ConnectSettledKeepsControllers(o, s, id, ok);
    case ImportSettled(id) => ImportSettledKeepsControllers(o, s, id);
    case BackoffElapsed(id) => BackoffKeepsControllers(s, id);
    case RegisterSettled(id, ok) => RegisterKeepsControllers(s, id, ok);
    case RegisterTabsSettled(id, ok) => RegisterTabsKeepsControllers(s, id, ok);
  }

  lemma InitialConfigKeepsControllers(s: State, c: Option<Config>)
    ensures KeepsControllers(s, OnInitialConfig(s, c))
  {
  }

  lemma ConnectSettledKeepsControllers(o: Oracles, s: State, id: nat, ok: bool)
    ensures KeepsControllers(s, OnConnectSettled(o, s, id, ok))
  {
  }

  lemma ImportSettledKeepsControllers(o: Oracles, s: State, id: nat)
    ensures KeepsControllers(s, OnImportSettled(o, s, id))
  {
  }

  lemma BackoffKeepsControllers(s: State, id: nat)
    ensures KeepsControllers(s, OnBackoffElapsed(s, id))
  {
  }

  lemma RegisterKeepsControllers(s: State, id: nat, ok: bool)
    ensures KeepsControllers(s, OnRegisterSettled(s, id, ok))
  {
  }

  lemma RegisterTabsKeepsControllers(s: State, id: nat, ok: bool)
    ensures KeepsControllers(s, OnRegisterTabsSettled(s, id, ok))
  {
  }

  /** Every suspended loop runs under an aborted controller. */
  predicate AllAborted(s: State) {
    forall id :: id in s.loops ==> s.loops[id].ctrl in s.aborted
  }

  /** The corrected teardown aborts the current controller, so every suspended loop is aborted. */
  lemma TeardownAbortsAll(s: State)
    requires Controlled(s)
    ensures Controlled(Teardown(s, true)) && AllAborted(Teardown(s, true))
  {
  }

  lemma RestartKeepsControlled(s: State, after: Option<Config>)
    requires Controlled(s) && AllAborted(s)
    ensures Controlled(Restart(s, after))
  {
  }

  lemma ConfigChangeKeepsControlled(o: Oracles, s: State, before: Option<Config>, after: Option<Config>)
    requires Controlled(s)
    ensures Controlled(OnConfigChanged(o, s, before, after))
  {
    var imported := if KeyText(after) != KeyText(before) then ReimportKey(o, s, after) else Success(s);
    if imported.Success? && AddressText(after) != AddressText(before) {
      var s1 := imported.value;
      assert Controlled(s1);
      TeardownAbortsAll(s1);
      RestartKeepsControlled(Teardown(s1, true), after);
    }
  }

  /** With the corrected change handler, every event keeps `Controlled`. */
  lemma StepKeepsControlled(o: Oracles, s: State, e: Event)
    requires Controlled(s)
    ensures Controlled(CorrectedStep(o, s, e))
  {
    match e
    case ConfigChanged(b, a) => ConfigChangeKeepsControlled(o, s, b, a);
    case InitialConfig(_) => LoopEventsKeepControllers(o, s, e);
    case ConnectSettled(_, _) => LoopEventsKeepControllers(o, s, e);
    case ImportSettled(_) => LoopEventsKeepControllers(o, s, e);
    case BackoffElapsed(_) => LoopEventsKeepControllers(o, s, e);
    case RegisterSettled(_, _) => LoopEventsKeepControllers(o, s, e);
    case RegisterTabsSettled(_, _) => LoopEventsKeepControllers(o, s, e);
    case _ => TabEventsKeepLoops(o, s, e);
  }

  /**
    Hence only the loop of the current controller ever calls `connect` again
    after a backoff; any other suspended loop stops silently.
  */
  lemma OnlyCurrentLoopReconnects(o: Oracles, s: State, id: nat)
    requires Controlled(s) && IsPhase(s, id, BackingOff) && s.loops[id].ctrl != s.haltLoop
    ensures var r := Step(o, s, BackoffElapsed(id));
      r.log == s.log && id !in r.loops
  {
  }

  ghost predicate KeepsControlled(t: (State, Event) -> State) {
    forall s: State, e: Event :: Controlled(s) ==> Controlled(t(s, e))
  }

  lemma {:induction false} ControlledFold(t: (State, Event) -> State, s: State, events: seq<Event>)
    requires KeepsControlled(t) && Controlled(s)
    ensures Controlled(Fold(t, s, events))
    decreases |events|
  {
    if |events| > 0 {
      ControlledFold(t, t(s, events[0]), events[1..]);
    }
  }

  /** Every state the corrected service worker reaches from startup is `Controlled`. */
  lemma ControlledAlways(o: Oracles, events: seq<Event>)
    ensures Controlled(CorrectedRun(o, Init(), events))
  {
    forall s: State, e: Event | Controlled(s) ensures Controlled(CorrectedStepOf(o)(s, e)) {
      StepKeepsControlled(o, s, e);
    }
    ControlledFold(CorrectedStepOf(o), Init(), events);
  }

  // ---------------------------------------------------------------------------
  // The stale loop
  // ---------------------------------------------------------------------------

  /**
    The situation of the defect: a connection was made once (and is closed
    now, but `connection` still holds it) while a later loop, under the
    current controller, waits out a backoff.
  */
  predicate StaleSetting(s: State, id: nat) {
    && s.connection.Some?
    && IsPhase(s, id, BackingOff) && s.loops[id].ctrl == s.haltLoop && s.haltLoop !in s.aborted
    && s.haltLoop < s.next && id < s.next
  }

  /**
    A run that reaches that situation from a fresh service worker: the stored
    config `c1` is read at startup, loop 1 connects (session 2, client 3),
    registers and finishes; the address then changes to that of `c2`, which
    closes session 2 and starts loop 5 under controller 4; loop 5's first
    `connect` fails. Session 2 is still recorded as `connection` while loop 5
    waits out its backoff. The run gets there with either change handler.
  */
  lemma StaleSettingReachable(o: Oracles, c1: Config, c2: Config)
    requires Connectable(c1) && Connectable(c2)
    requires c1.encryptionKey == c2.encryptionKey && c1.relayServerAddress != c2.relayServerAddress
    requires HexToBytes(c1.encryptionKey).Success? && o.importKey(HexToBytes(c1.encryptionKey).value).Some?
    ensures StaleSetting(OnConnectSettled(o, OnConfigChangedAsWritten(o, FirstLoopRun(o, c1), Some(c1), Some(c2)), 5, false), 5)
    ensures StaleSetting(OnConnectSettled(o, OnConfigChanged(o, FirstLoopRun(o, c1), Some(c1), Some(c2)), 5, false), 5)
  {
    var s4 := FirstLoopRun(o, c1);
    TraceAddressChange(o, s4, c1, c2, false);
    TraceConnectFails(o, OnConfigChangedAsWritten(o, s4, Some(c1), Some(c2)), 5);
    TraceAddressChange(o, s4, c1, c2, true);
    TraceConnectFails(o, OnConfigChanged(o, s4, Some(c1), Some(c2)), 5);
  }

  /** Startup with `c`: loop 1 connects, registers its input and its tabs, and ends. */
  function FirstLoopRun(o: Oracles, c: Config): (s4: State)
    requires Connectable(c)
    requires HexToBytes(c.encryptionKey).Success? && o.importKey(HexToBytes(c.encryptionKey).value).Some?
    ensures s4.connection == Some(2) && s4.next == 4 && s4.haltLoop == 0 && s4.aborted == {}
  {
    var s1 := OnInitialConfig(Init(), Some(c));
    TraceStart(Init(), c);
    var s2 := OnConnectSettled(o, s1, 1, true);
    TraceConnected(o, s1, 1);
    var s3 := OnImportSettled(o, s2, 1);
    TraceImported(o, s2, 1);
    var s4 := OnRegisterSettled(s3, 1, true);
    TraceRegistered(s3, 1);
    TraceTabsRegistered(s4, 1);
    OnRegisterTabsSettled(s4, 1, true)
  }

  lemma TraceStart(s: State, c: Config)
    requires Connectable(c) && s.haltLoop !in s.aborted
    ensures var r := OnInitialConfig(s, Some(c));
      && IsPhase(r, s.next, Connecting) && r.loops[s.next].config == c && r.loops[s.next].ctrl == s.haltLoop
      && r.next == s.next + 1 && r.haltLoop == s.haltLoop && r.aborted == s.aborted && r.connection == s.connection
  {
  }

  lemma TraceConnected(o: Oracles, s: State, id: nat)
    requires IsPhase(s, id, Connecting)
    requires HexToBytes(s.loops[id].config.encryptionKey).Success?
    ensures var r := OnConnectSettled(o, s, id, true);
      && IsPhase(r, id, Importing(HexToBytes(s.loops[id].config.encryptionKey).value))
      && r.connection == Some(s.next) && r.loops[id].config == s.loops[id].config
      && r.next == s.next + 1 && r.haltLoop == s.haltLoop && r.aborted == s.aborted
  {
  }

  lemma TraceImported(o: Oracles, s: State, id: nat)
    requires id in s.loops && s.loops[id].phase.Importing? && o.importKey(s.loops[id].phase.raw).Some?
    ensures var r := OnImportSettled(o, s, id);
      && IsPhase(r, id, Registering) && r.connection == s.connection && r.dt == Some(s.next)
      && r.next == s.next + 1 && r.haltLoop == s.haltLoop && r.aborted == s.aborted
  {
  }

  lemma TraceRegistered(s: State, id: nat)
    requires IsPhase(s, id, Registering) && s.dt.Some?
    ensures var r := OnRegisterSettled(s, id, true);
      && IsPhase(r, id, RegisteringTabs) && r.dt == s.dt && r.connection == s.connection
      && r.next == s.next && r.haltLoop == s.haltLoop && r.aborted == s.aborted
  {
  }

  lemma TraceTabsRegistered(s: State, id: nat)
    requires IsPhase(s, id, RegisteringTabs) && s.dt.Some? && s.connection.Some?
    ensures var r := OnRegisterTabsSettled(s, id, true);
      && r.connection == s.connection && r.next == s.next && r.haltLoop == s.haltLoop && r.aborted == s.aborted
  {
  }

  lemma TraceAddressChange(o: Oracles, s: State, c1: Config, c2: Config, abortOnClose: bool)
    requires Connectable(c2) && c1.encryptionKey == c2.encryptionKey && c1.relayServerAddress != c2.relayServerAddress
    requires s.connection.Some? && s.haltLoop < s.next && forall a :: a in s.aborted ==> a < s.next
    ensures var r := ConfigChange(o, s, Some(c1), Some(c2), abortOnClose);
      && r.connection == s.connection && r.haltLoop == s.next && r.next == s.next + 2
      && r.aborted == (if abortOnClose then s.aborted + {s.haltLoop} else s.aborted)
      && IsPhase(r, s.next + 1, Connecting) && r.loops[s.next + 1].ctrl == s.next
  {
    var t := Teardown(s, abortOnClose);
    assert t.connection == s.connection && t.next == s.next;
    assert s.next !in t.aborted;
  }

  lemma TraceConnectFails(o: Oracles, s: State, id: nat)
    requires IsPhase(s, id, Connecting)
    ensures var r := OnConnectSettled(o, s, id, false);
      && IsPhase(r, id, BackingOff) && r.loops[id].ctrl == s.loops[id].ctrl
      && r.connection == s.connection && r.next == s.next && r.haltLoop == s.haltLoop && r.aborted == s.aborted
  {
  }

  /**
    As written: a second address change in that situation closes the old
    connection again instead of aborting the controller, so the superseded
    loop survives, outside the current controller, and at the end of its
    backoff calls `connect` with its superseded address.
  */
  lemma StaleLoopSurvivesAsWritten(o: Oracles, s: State, id: nat, before: Option<Config>, after: Option<Config>)
    requires StaleSetting(s, id)
    requires KeyText(before) == KeyText(after) && AddressText(before) != AddressText(after)
    ensures var r := OnConfigChangedAsWritten(o, s, before, after);
      var a := s.loops[id].config.relayServerAddress;
      && !Controlled(r)
      && Step(o, r, BackoffElapsed(id)).log == r.log + [StatusWrite(|r.sPorts|, true), ConnectCall(id, Address.Url(a), Address.Hash(a))]
  {
    var t := Teardown(s, false);
    var r := Restart(t, after);
    assert r.loops[id] == s.loops[id];
  }

  /** Corrected: the same change aborts the superseded loop, which then stops without calling `connect`. */
  lemma StaleLoopStopsCorrected(o: Oracles, s: State, id: nat, before: Option<Config>, after: Option<Config>)
    requires StaleSetting(s, id)
    requires KeyText(before) == KeyText(after) && AddressText(before) != AddressText(after)
    ensures var r := OnConfigChanged(o, s, before, after);
      var r' := Step(o, r, BackoffElapsed(id));
      r'.log == r.log && id !in r'.loops
  {
    var t := Teardown(s, true);
    var r := Restart(t, after);
    assert r.loops[id] == s.loops[id];
  }
}

=== FILE: queue_facts.dfy ===
/**
  What the outbound queue of `processMessageQueue` (index.ts lines 19-41)
  guarantees over whole runs: `data` messages are emitted in the order the
  tabs sent them, none twice and none invented; a drain that threw never
  emits again; and only a tab's message starts a drain.
*/
module QueueFacts {
  import opened Base
  import opened Envelope
  import opened Coordinator

  /** The item an event appends to the queue, if any. */
  function Enqueued(s: State, e: Event): seq<Item> {
    if e.PortMessage? && e.port in s.ports && e.msg.DataMsg? then [Item(s.ports[e.port], e.msg.data)] else []
  }

  /** Every item a run of events appends to the queue, in order. */
  function EnqueuedAll(t: (State, Event) -> State, s: State, events: seq<Event>): seq<Item>
    decreases |events|
  {
    if |events| == 0 then [] else Enqueued(s, events[0]) + EnqueuedAll(t, t(s, events[0]), events[1..])
  }

  /** One event moves nothing between emitted, in flight and waiting, except to append what it enqueues. */
  lemma StepAccounts(o: Oracles, s: State, e: Event)
    ensures Accounted(Step(o, s, e)) == Accounted(s) + Enqueued(s, e)
  {
    match e
    case PortMessage(p, msg) =>
      if p !in s.ports || !msg.DataMsg? {
        assert Enqueued(s, e) == [];
      }
    case _ =>
  }

  /** The same holds with the corrected change handler, which enqueues nothing either. */
  lemma CorrectedStepAccounts(o: Oracles, s: State, e: Event)
    ensures Accounted(CorrectedStep(o, s, e)) == Accounted(s) + Enqueued(s, e)
  {
    if e.ConfigChanged? {
      assert QueueUntouched(s, OnConfigChanged(o, s, e.before, e.after));
    } else {
      StepAccounts(o, s, e);
    }
  }

  /** A transition function that only ever appends what it enqueues. */
  ghost predicate Accounts(t: (State, Event) -> State) {
    forall s: State, e: Event :: Accounted(t(s, e)) == Accounted(s) + Enqueued(s, e)
  }

  lemma StepOfAccounts(o: Oracles)
    ensures Accounts(StepOf(o)) && Accounts(CorrectedStepOf(o))
  {
    forall s, e
      ensures Accounted(StepOf(o)(s, e)) == Accounted(s) + Enqueued(s, e)
      ensures Accounted(CorrectedStepOf(o)(s, e)) == Accounted(s) + Enqueued(s, e)
    {
      StepAccounts(o, s, e);
      CorrectedStepAccounts(o, s, e);
    }
  }

  /** Over a run, the accounted items grow by exactly what the run enqueued. */
  lemma {:induction false} RunAccounts(t: (State, Event) -> State, s: State, events: seq<Event>)
    requires Accounts(t)
    ensures Accounted(Fold(t, s, events)) == Accounted(s) + EnqueuedAll(t, s, events)
    decreases |events|
  {
    if |events| > 0 {
      var s1, rest := t(s, events[0]), events[1..];
      RunAccounts(t, s1, rest);
      assert Accounted(s1) == Accounted(s) + Enqueued(s, events[0]);
      Reassociate(Accounted(s), Enqueued(s, events[0]), EnqueuedAll(t, s1, rest));
    }
  }

  lemma Reassociate(a: seq<Item>, b: seq<Item>, c: seq<Item>)
    ensures (a + b) + c == a + (b + c)
  {
  }

  /**
    From a fresh service worker, the data emitted so far is a prefix of the
    data the tabs sent: same order, no duplicates, nothing invented. What is
    missing is the item in flight (or lost by a failed drain) and the queue.
    This holds with either change handler.
  */
  lemma EmittedIsPrefixOfSent(o: Oracles, events: seq<Event>)
    ensures DataSent(Run(o, Init(), events).log) <= EnqueuedAll(StepOf(o), Init(), events)
    ensures DataSent(Run(o, Init(), events).log) + InFlight(Run(o, Init(), events).drain) + Run(o, Init(), events).queue
      == EnqueuedAll(StepOf(o), Init(), events)
    ensures DataSent(CorrectedRun(o, Init(), events).log) <= EnqueuedAll(CorrectedStepOf(o), Init(), events)
  {
    StepOfAccounts(o);
    assert Accounted(Init()) == [];
    RunAccounts(StepOf(o), Init(), events);
    var r := Run(o, Init(), events);
    HeadIsPrefix(DataSent(r.log), InFlight(r.drain), r.queue, EnqueuedAll(StepOf(o), Init(), events));
    RunAccounts(CorrectedStepOf(o), Init(), events);
    var r' := CorrectedRun(o, Init(), events);
    HeadIsPrefix(DataSent(r'.log), InFlight(r'.drain), r'.queue, EnqueuedAll(CorrectedStepOf(o), Init(), events));
  }

  lemma HeadIsPrefix(a: seq<Item>, b: seq<Item>, c: seq<Item>, e: seq<Item>)
    requires a + b + c == e
    ensures a <= e
  {
    assert e[..|a|] == a;
  }

  /** A drain that threw stays stuck through any event, and no further data is emitted. */
  lemma StuckStays(o: Oracles, s: State, e: Event)
    requires s.drain.Stuck?
    ensures Step(o, s, e).drain == s.drain
    ensures DataSent(Step(o, s, e).log) == DataSent(s.log)
  {
    match e
    case PortMessage(p, msg) =>
      if p in s.ports {
        var s1 := Receive(s, s.ports[p], msg);
        assert ProcessQueue(o, s1) == s1;
      }
    case _ =>
  }

  /** Once stuck, forever stuck: whatever the tabs send afterwards is never emitted. */
  lemma StuckForever(o: Oracles, s: State, events: seq<Event>)
    requires s.drain.Stuck?
    ensures Run(o, s, events).drain == s.drain
    ensures DataSent(Run(o, s, events).log) == DataSent(s.log)
  {
    forall s': State, e: Event | s'.drain.Stuck?
      ensures StepOf(o)(s', e).drain == s'.drain && DataSent(StepOf(o)(s', e).log) == DataSent(s'.log)
    {
      StuckStays(o, s', e);
    }
    StuckFold(StepOf(o), s, events);
  }

  /** A transition function under which a stuck drain stays stuck and emits nothing. */
  ghost predicate KeepsStuck(t: (State, Event) -> State) {
    forall s: State, e: Event :: s.drain.Stuck? ==> t(s, e).drain == s.drain && DataSent(t(s, e).log) == DataSent(s.log)
  }

  lemma {:induction false} StuckFold(t: (State, Event) -> State, s: State, events: seq<Event>)
    requires KeepsStuck(t) && s.drain.Stuck?
    ensures Fold(t, s, events).drain == s.drain
    ensures DataSent(Fold(t, s, events).log) == DataSent(s.log)
    decreases |events|
  {
    if |events| > 0 {
      StuckFold(t, t(s, events[0]), events[1..]);
    }
  }

  /**
    The `isMessageQueueProcessing` guard is checked only on entry: a message
    that arrives while an item is being encrypted joins the queue and starts
    nothing.
  */
  lemma MessageDuringDrain(o: Oracles, s: State, p: PortId, d: string)
    requires s.drain.Encrypting? && p in s.ports
    ensures Step(o, s, PortMessage(p, DataMsg(d))).drain == s.drain
    ensures Step(o, s, PortMessage(p, DataMsg(d))).queue == s.queue + [Item(s.ports[p], d)]
  {
    var s1 := Receive(s, s.ports[p], DataMsg(d));
    assert ProcessQueue(o, s1) == s1;
  }

  /**
    Only a tab's message starts a drain: connecting, importing the key or
    registering never flushes what was queued before the key was there.
  */
  lemma OnlyPortMessagesStartDrain(o: Oracles, s: State, e: Event)
    requires s.drain.Idle?
    requires Step(o, s, e).drain.Encrypting?
    ensures e.PortMessage? && e.port in s.ports
    ensures s.key.Some? && s.dt.Some?
  {
    match e
    case PortMessage(p, msg) =>
      if p in s.ports {
        var s1 := Receive(s, s.ports[p], msg);
        assert s1.key == s.key && s1.dt == s.dt && s1.drain.Idle?;
        var s2 := ProcessQueue(o, s1);
        assert s2.drain.Encrypting?;
      }
    case _ =>
  }

  /**
    The token a drain emits is the sealed item: whoever holds the same key
    opens it to exactly the data the tab sent.
  */
  lemma EmittedTokenOpens(o: Oracles, s: State, k: Key)
    requires s.drain.Encrypting? && s.drain.key == Some(k) && s.dt.Some?
    requires |s.drain.iv| == IvLength && LawsAt(o, k, s.drain.iv, s.drain.item.data)
    requires Seal(o, Some(k), s.drain.iv, s.drain.item.data).Some?
    ensures var r := OnEncryptSettled(o, s);
      && |r.log| == |s.log| + 1
      && r.log[|s.log|].EmitData?
      && r.log[|s.log|].id == s.drain.item.id
      && Open(o, Some(k), r.log[|s.log|].token) == Some(s.drain.item.data)
  {
    OpenSeal(o, k, s.drain.iv, s.drain.item.data);
  }
}

=== FILE: registry.dfy ===
/**
  The service worker's `sPorts`: a JavaScript `Map` from tab name to port,
  modelled as an association list so that key order (insertion order, kept
  on overwrite) is visible to `[...sPorts.keys()]` and `[...sPorts.values()]`.
*/
module Registry {
  import opened Base

  type PortId = nat

  datatype Entry = Entry(name: string, port: PortId)

  type Table = seq<Entry>

  /** `[...sPorts.keys()]`. */
  function Names(t: Table): (r: seq<string>)
    ensures |r| == |t|
    ensures forall i :: 0 <= i < |t| ==> r[i] == t[i].name
  {
    if |t| == 0 then [] else [t[0].name] + Names(t[1..])
  }

  /** `[...sPorts.values()]`. */
  function Ports(t: Table): (r: seq<PortId>)
    ensures |r| == |t|
    ensures forall i :: 0 <= i < |t| ==> r[i] == t[i].port
  {
    if |t| == 0 then [] else [t[0].port] + Ports(t[1..])
  }

  function NameSet(t: Table): set<string> {
    set i | 0 <= i < |t| :: t[i].name
  }

  /** A `Map` holds each key once. */
  predicate Distinct(t: Table) {
    forall i, j :: 0 <= i < j < |t| ==> t[i].name != t[j].name
  }

  /** `sPorts.get(name)`. */
  function Lookup(t: Table, name: string): (r: Option<PortId>)
    ensures r.None? <==> name !in NameSet(t)
    ensures r.Some? ==> exists i :: 0 <= i < |t| && t[i] == Entry(name, r.value)
  {
    if |t| == 0 then None
    else if t[0].name == name then Some(t[0].port)
    else
      var r := Lookup(t[1..], name);
      NameSetCons(t);
      if r.Some? then
        var i :| 0 <= i < |t[1..]| && t[1..][i] == Entry(name, r.value);
        assert t[i + 1] == Entry(name, r.value);
        r
      else r
  }

  lemma NameSetCons(t: Table)
    requires |t| > 0
    ensures NameSet(t) == {t[0].name} + NameSet(t[1..])
  {
    forall n | n in NameSet(t) ensures n in {t[0].name} + NameSet(t[1..]) {
      var i :| 0 <= i < |t| && t[i].name == n;
      if i > 0 { assert t[1..][i - 1].name == n; }
    }
    forall n | n in NameSet(t[1..]) ensures n in NameSet(t) {
      var i :| 0 <= i < |t[1..]| && t[1..][i].name == n;
      assert t[i + 1].name == n;
    }
  }

  /** `sPorts.set(name, port)`: overwrite in place when the name is present, append otherwise. */
  function Put(t: Table, name: string, port: PortId): (r: Table)
    ensures Distinct(t) ==> Distinct(r)
    ensures NameSet(r) == NameSet(t) + {name}
    ensures Lookup(r, name) == Some(port)
    ensures forall n :: n != name ==> Lookup(r, n) == Lookup(t, n)
    ensures name in NameSet(t) ==> |r| == |t| && Names(r) == Names(t)
    ensures name !in NameSet(t) ==> r == t + [Entry(name, port)]
  {
    if name in NameSet(t) then
      var r := seq(|t|, i requires 0 <= i < |t| => if t[i].name == name then Entry(name, port) else t[i]);
      assert forall i :: 0 <= i < |t| ==> r[i].name == t[i].name;
      assert NameSet(r) == NameSet(t) by {
        forall n | n in NameSet(t) ensures n in NameSet(r) {
          var i :| 0 <= i < |t| && t[i].name == n;
          assert r[i].name == n;
        }
      }
      assert Names(r) == Names(t);
      forall n ensures Lookup(r, n) == (if n == name then Some(port) else Lookup(t, n)) {
        LookupAgrees(t, r, name, port, n);
      }
      r
    else
      var r := t + [Entry(name, port)];
      assert NameSet(r) == NameSet(t) + {name} by {
        forall n | n in NameSet(r) ensures n in NameSet(t) + {name} {
          var i :| 0 <= i < |r| && r[i].name == n;
          if i < |t| { assert t[i].name == n; }
        }
        assert r[|t|].name == name;
        forall n | n in NameSet(t) ensures n in NameSet(r) {
          var i :| 0 <= i < |t| && t[i].name == n;
          assert r[i].name == n;
        }
      }
      forall n ensures Lookup(r, n) == (if n == name then Some(port) else Lookup(t, n)) {
        LookupAppend(t, Entry(name, port), n);
      }
      r
  }

  /** `r` is `t` with some entries dropped and the rest in their original order. */
  predicate Subsequence(r: Table, t: Table)
    decreases |t|
  {
    if |r| == 0 then true
    else if |t| == 0 then false
    else (r[0] == t[0] && Subsequence(r[1..], t[1..])) || Subsequence(r, t[1..])
  }

  /** `sPorts.delete(name)`: the entry for that name goes, the others keep their order. */
  function Remove(t: Table, name: string): (r: Table)
    ensures Distinct(t) ==> Distinct(r)
    ensures NameSet(r) == NameSet(t) - {name}
    ensures Lookup(r, name) == None
    ensures forall n :: n != name ==> Lookup(r, n) == Lookup(t, n)
    ensures |r| <= |t|
    ensures Subsequence(r, t)
  {
    if |t| == 0 then []
    else
      var rest := Remove(t[1..], name);
      NameSetCons(t);
      if t[0].name == name then rest
      else
        var r := [t[0]] + rest;
        assert r[0] == t[0] && r[1..] == rest;
        NameSetCons(r);
        assert Distinct(t) ==> Distinct(r) by {
          if Distinct(t) {
            assert t[0].name !in NameSet(t[1..]);
            forall j | 0 < j < |r| ensures r[0].name != r[j].name {
              assert r[j].name in NameSet(rest);
            }
          }
        }
        r
  }

  /** `Remove` drops exactly the entries with that name, whatever else is in the table. */
  lemma {:induction false} RemoveKeepsOthers(t: Table, name: string, e: Entry)
    ensures e in Remove(t, name) <==> e in t && e.name != name
    decreases |t|
  {
    if |t| > 0 {
      RemoveKeepsOthers(t[1..], name, e);
      assert e in t <==> e == t[0] || e in t[1..] by {
        assert t == [t[0]] + t[1..];
      }
    }
  }

  /** The entries `Remove` keeps appear in the order they had in the table. */
  lemma RemoveKeepsOrder(t: Table, name: string, i: nat, j: nat)
    requires i < j < |Remove(t, name)|
    ensures var r := Remove(t, name);
      exists a, b :: 0 <= a < b < |t| && r[i] == t[a] && r[j] == t[b]
  {
    SubsequenceKeepsOrder(Remove(t, name), t, i, j);
  }

  /** Any two entries of a subsequence sit in the same order in the table it came from. */
  lemma {:induction false} SubsequenceKeepsOrder(r: Table, t: Table, i: nat, j: nat)
    requires Subsequence(r, t) && i < j < |r|
    ensures exists a, b :: 0 <= a < b < |t| && r[i] == t[a] && r[j] == t[b]
    decreases |t|
  {
    if r[0] == t[0] && Subsequence(r[1..], t[1..]) {
      if i == 0 {
        SubsequenceHas(r[1..], t[1..], j - 1);
        var b :| 0 <= b < |t[1..]| && r[1..][j - 1] == t[1..][b];
        assert r[i] == t[0] && r[j] == t[b + 1];
      } else {
        SubsequenceKeepsOrder(r[1..], t[1..], i - 1, j - 1);
        var a, b :| 0 <= a < b < |t[1..]| && r[1..][i - 1] == t[1..][a] && r[1..][j - 1] == t[1..][b];
        assert r[i] == t[a + 1] && r[j] == t[b + 1];
      }
    } else {
      SubsequenceKeepsOrder(r, t[1..], i, j);
      var a, b :| 0 <= a < b < |t[1..]| && r[i] == t[1..][a] && r[j] == t[1..][b];
      assert r[i] == t[a + 1] && r[j] == t[b + 1];
    }
  }

  /** Every entry of a subsequence is an entry of the table. */
  lemma {:induction false} SubsequenceHas(r: Table, t: Table, k: nat)
    requires Subsequence(r, t) && k < |r|
    ensures exists b :: 0 <= b < |t| && r[k] == t[b]
    decreases |t|
  {
    if r[0] == t[0] && Subsequence(r[1..], t[1..]) {
      if k == 0 {
        assert r[k] == t[0];
      } else {
        SubsequenceHas(r[1..], t[1..], k - 1);
        var b :| 0 <= b < |t[1..]| && r[1..][k - 1] == t[1..][b];
        assert r[k] == t[b + 1];
      }
    } else {
      SubsequenceHas(r, t[1..], k);
      var b :| 0 <= b < |t[1..]| && r[k] == t[1..][b];
      assert r[k] == t[b + 1];
    }
  }

  lemma LookupAgrees(t: Table, r: Table, name: string, port: PortId, n: string)
    requires |r| == |t|
    requires forall i :: 0 <= i < |t| ==> r[i] == (if t[i].name == name then Entry(name, port) else t[i])
    requires n == name ==> name in NameSet(t)
    ensures Lookup(r, n) == (if n == name then Some(port) else Lookup(t, n))
    decreases |t|
  {
    if |t| > 0 && (t[0].name != name || n != name) {
      NameSetCons(t);
      LookupAgrees(t[1..], r[1..], name, port, n);
    }
  }

  lemma LookupAppend(t: Table, e: Entry, n: string)
    requires e.name !in NameSet(t)
    ensures Lookup(t + [e], n) == (if n == e.name then Some(e.port) else Lookup(t, n))
    decreases |t|
  {
    if |t| > 0 {
      assert (t + [e])[1..] == t[1..] + [e];
      NameSetCons(t);
      LookupAppend(t[1..], e, n);
    } else {
      assert t + [e] == [e];
    }
  }

  /** The reference meaning of the table: the `Map` it stands for. */
  function AsMap(t: Table): map<string, PortId> {
    map n | n in NameSet(t) :: Lookup(t, n).value
  }

  /** `Put` is map update and `Remove` is key removal, seen through `AsMap`. */
  lemma PutRemoveAreMapOperations(t: Table, name: string, port: PortId)
    requires Distinct(t)
    ensures AsMap(Put(t, name, port)) == AsMap(t)[name := port]
    ensures AsMap(Remove(t, name)) == AsMap(t) - {name}
  {
    PutIsUpdate(t, name, port);
    RemoveIsRemoval(t, name);
  }

  lemma PutIsUpdate(t: Table, name: string, port: PortId)
    requires Distinct(t)
    ensures AsMap(Put(t, name, port)) == AsMap(t)[name := port]
  {
  }

  lemma RemoveIsRemoval(t: Table, name: string)
    ensures AsMap(Remove(t, name)) == AsMap(t) - {name}
  {
    var r := Remove(t, name);
    assert NameSet(r) == NameSet(t) - {name};
    forall n | n in NameSet(r) ensures AsMap(r)[n] == AsMap(t)[n] {
      assert Lookup(r, n) == Lookup(t, n);
    }
  }

  /** `sPorts.size`: the number of distinct registered names. */
  lemma {:induction false} SizeIsNameCount(t: Table)
    requires Distinct(t)
    ensures |t| == |NameSet(t)|
    decreases |t|
  {
    if |t| > 0 {
      NameSetCons(t);
      assert t[0].name !in NameSet(t[1..]);
      SizeIsNameCount(t[1..]);
    }
  }
}

=== FILE: relay_facts.dfy ===
/**
  The relay client's handlers seen from the tabs (index.ts lines 72-86 and
  131-222): the reply correlation of `requestSpecificData`, the two paths of
  `injData`, and re-registration after a failed resume.
*/
module RelayFacts {
  import opened Base
  import opened Envelope
  import opened Coordinator
  import Registry

  /** Nothing is left for a message to fire once it has fired its listeners. */
  lemma NothingFiresTwice(ls: seq<Listener>, p: PortId, msg: TabMessage)
    ensures Fired(Kept(ls, p, msg), p, msg) == []
  {
    NoneFire(Kept(ls, p, msg), p, msg);
  }

  lemma {:induction false} NoneFire(ls: seq<Listener>, p: PortId, msg: TabMessage)
    requires forall i :: 0 <= i < |ls| ==> !Matches(ls[i], p, msg)
    ensures Fired(ls, p, msg) == []
    decreases |ls|
  {
    if |ls| > 0 {
      NoneFire(ls[1..], p, msg);
    }
  }

  /** A listener fires on a message exactly when the message is a `custom` one from its port with its `qos`. */
  lemma FiresIffMatches(ls: seq<Listener>, l: Listener, p: PortId, msg: TabMessage)
    requires l in ls
    ensures l in Fired(ls, p, msg) <==> (l.port == p && msg.CustomMsg? && msg.qos == Some(l.qos))
    ensures l in Kept(ls, p, msg) <==> !(l.port == p && msg.CustomMsg? && msg.qos == Some(l.qos))
  {
  }

  /**
    A tab's reply to `requestSpecificData` is seen by both handlers of its
    port: the general handler emits it at once as `("specificData", qos,
    data)`, and the correlation listener then answers the request under its
    nonce (or throws when encryption or the client fails).
  */
  lemma ReplySeenTwice(o: Oracles, s: State, p: PortId, q: Qos, n: Nonce, d: string)
    requires p in s.ports && s.dt.Some? && s.queue == []
    requires s.listeners == [Listener(p, q, n)]
    ensures var r := Step(o, s, PortMessage(p, CustomMsg(Some(q), d)));
      && |r.log| == |s.log| + 2
      && r.log[|s.log|] == EmitSpecificData(Some(q), d)
      && r.log[|s.log| + 1] == ReplyAction(o, s.key, s.dt, o.iv(s.draws), Listener(p, q, n), d)
      && r.listeners == []
  {
    var msg := CustomMsg(Some(q), d);
    var s1 := Receive(s, s.ports[p], msg);
    assert s1 == Log(s, EmitSpecificData(Some(q), d));
    var s2 := ProcessQueue(o, s1);
    assert s2 == s1;
    assert Step(o, s, PortMessage(p, msg)) == Correlate(o, s1, p, msg);
    assert Fired(s1.listeners, p, msg) == [Listener(p, q, n)];
    assert Kept(s1.listeners, p, msg) == [];
  }

  /** What a fired listener emits carries its request's nonce and a token that opens to the reply. */
  lemma ReplyTokenOpens(o: Oracles, k: Key, dt: nat, iv: seq<Byte>, l: Listener, d: string)
    requires |iv| == IvLength && LawsAt(o, k, iv, d)
    requires Seal(o, Some(k), iv, d).Some?
    ensures var a := ReplyAction(o, Some(k), Some(dt), iv, l, d);
      a.EmitSpecificReply? && a.nonce == l.nonce && Open(o, Some(k), a.token) == Some(d)
  {
    OpenSeal(o, k, iv, d);
  }

  /**
    Correlation listeners are one-shot: after a message fired them, the same
    message again fires none, and so produces no reply.
  */
  lemma RepliesOnce(o: Oracles, s: State, p: PortId, msg: TabMessage)
    requires p in s.ports
    ensures var r := Step(o, s, PortMessage(p, msg));
      Fired(r.listeners, p, msg) == [] && r.ports == s.ports
  {
    NothingFiresTwice(s.listeners, p, msg);
  }

  /** Only a `custom` message fires a correlation listener, and listeners on other ports never fire. */
  lemma OnlyCustomRepliesCorrelate(o: Oracles, s: State, p: PortId, msg: TabMessage)
    requires p in s.ports
    requires !msg.CustomMsg? || forall i :: 0 <= i < |s.listeners| ==> s.listeners[i].port != p
    ensures Step(o, s, PortMessage(p, msg)).listeners == s.listeners
  {
    KeptAll(s.listeners, p, msg);
  }

  lemma {:induction false} KeptAll(ls: seq<Listener>, p: PortId, msg: TabMessage)
    requires !msg.CustomMsg? || forall i :: 0 <= i < |ls| ==> ls[i].port != p
    ensures Kept(ls, p, msg) == ls
    decreases |ls|
  {
    if |ls| > 0 {
      assert !Matches(ls[0], p, msg);
      KeptAll(ls[1..], p, msg);
    }
  }

  /**
    `injData` addressed to a registered tab delivers exactly the plaintext
    the server sealed under the shared key, to that tab's port.
  */
  lemma InjDataDeliversPlaintext(o: Oracles, s: State, client: nat, qos: RemoteQos, k: Key, iv: seq<Byte>, plain: string, tab: string)
    requires client in s.listening && tab != "" && Registry.Lookup(s.sPorts, tab).Some?
    requires s.key == Some(k) && |iv| == IvLength && LawsAt(o, k, iv, plain)
    requires Seal(o, Some(k), iv, plain).Some?
    ensures var r := Step(o, s, InjData(client, qos, Seal(o, Some(k), iv, plain).value, Some(tab), 0));
      r.log == s.log + [Post(Registry.Lookup(s.sPorts, tab).value, DataOut(qos, plain))]
  {
    OpenSeal(o, k, iv, plain);
  }

  /** `injData` addressed to a name nobody registered does nothing at all. */
  lemma InjDataToUnknownTabIsDropped(o: Oracles, s: State, client: nat, qos: RemoteQos, data: string, tab: string, pick: nat)
    requires tab != "" && tab !in Registry.NameSet(s.sPorts)
    ensures Step(o, s, InjData(client, qos, data, Some(tab), pick)) == s
  {
  }

  /**
    Without a tab ID (absent or empty) `injData` forwards the wire text as it
    came, undecrypted, to the picked port, whatever the key.
  */
  lemma FallbackForwardsUndecrypted(o: Oracles, s: State, client: nat, qos: RemoteQos, data: string, tabID: Option<string>, pick: nat)
    requires client in s.listening && (tabID == None || tabID == Some(""))
    requires pick < |s.sPorts|
    ensures Step(o, s, InjData(client, qos, data, tabID, pick)).log == s.log + [Post(s.sPorts[pick].port, DataOut(qos, data))]
    ensures Step(o, s.(key := None), InjData(client, qos, data, tabID, pick)).log == s.log + [Post(s.sPorts[pick].port, DataOut(qos, data))]
  {
  }

  /** A client whose handlers were never installed, or were removed, ignores the server's calls. */
  lemma DetachedClientIgnored(o: Oracles, s: State, client: nat, e: Event)
    requires (e.InjData? || e.RequestSpecificData?) && e.client == client
    requires client !in s.listening
    ensures Step(o, s, e) == s
  {
  }

  /**
    A failed resume moves every pending `updateResume` hook to the new
    session, which becomes `connection`; with a client each hook registers
    the stored account and the current tab names again.
  */
  lemma ResumeRegistersAgain(o: Oracles, s: State, conn: nat, acct: Option<string>)
    requires s.resumeHooks[conn] > 0 && s.dt.Some? && conn < s.next
    ensures var r := Step(o, s, ResumeFailed(conn, acct));
      && r.connection == Some(s.next)
      && r.resumeHooks[s.next] == s.resumeHooks[conn] && r.resumeHooks[conn] == 0
      && RegisterInputTab(Names(s)) in r.log[|s.log|..]
  {
  }
}

=== FILE: tab_facts.dfy ===
/**
  The tab registry of the service worker (`sPorts`, index.ts lines 43-88):
  which names are registered, which ports they lead to, and what the status
  record counts.
*/
module TabFacts {
  import opened Base
  import opened Envelope
  import opened Coordinator
  import Registry

  /**
    Every registered name leads to a live port that carries that name; names
    are registered once; the reserved `"GUI"` name never is; port identities
    are below the fresh-id counter.
  */
  predicate Valid(s: State) {
    && Registry.Distinct(s.sPorts)
    && (forall n :: n in Registry.NameSet(s.sPorts) ==>
          Registry.Lookup(s.sPorts, n).value in s.ports && s.ports[Registry.Lookup(s.sPorts, n).value] == n)
    && (forall p :: p in s.ports ==> p < s.next && s.ports[p] != ReservedName)
  }

  lemma InitValid()
    ensures Valid(Init())
  {
  }

  /** The events that leave the tab registry and the live ports alone, and never lower the fresh-id counter. */
  lemma OtherEventsKeepTabs(o: Oracles, s: State, e: Event)
    requires !e.Attach? && !e.Detach?
    ensures Step(o, s, e).ports == s.ports && Step(o, s, e).sPorts == s.sPorts
    ensures Step(o, s, e).next >= s.next
  {
    match e
    case PortMessage(p, msg) =>
    case EncryptSettled =>
    case InitialConfig(c) =>
    case ConfigChanged(b, a) =>
    case ConnectSettled(id, ok) =>
    case ImportSettled(id) =>
    case BackoffElapsed(id) =>
    case RegisterSettled(id, ok) =>
    case RegisterTabsSettled(id, ok) =>
    case RequestSpecificData(c, id, data, nonce, qos) =>
    case InjData(c, qos, data, tabID, pick) =>
    case ResumeFailed(conn, acct) =>
    case KeepAlive =>
  }

  lemma AttachKeepsValid(s: State, name: TabName)
    requires Valid(s)
    ensures Valid(OnConnect(s, name))
  {
    if name != ReservedName {
      ValidAfterAttach(s, OnConnect(s, name), name);
    }
  }

  /** Any state that registers `name` for a fresh port, as an attach does, is valid again. */
  lemma ValidAfterAttach(s: State, r: State, name: TabName)
    requires Valid(s) && name != ReservedName
    requires Registry.Distinct(r.sPorts) && Registry.Lookup(r.sPorts, name) == Some(s.next)
    requires forall n :: n != name ==> Registry.Lookup(r.sPorts, n) == Registry.Lookup(s.sPorts, n)
    requires Registry.NameSet(r.sPorts) == Registry.NameSet(s.sPorts) + {name}
    requires r.ports == s.ports[s.next := name] && r.next == s.next + 1
    ensures Valid(r)
  {
    forall n | n in Registry.NameSet(r.sPorts)
      ensures Registry.Lookup(r.sPorts, n).value in r.ports && r.ports[Registry.Lookup(r.sPorts, n).value] == n
    {
      if n != name {
        assert Registry.Lookup(s.sPorts, n).value < s.next;
      }
    }
  }

  lemma DetachKeepsValid(s: State, p: PortId)
    requires Valid(s)
    ensures Valid(OnDisconnect(s, p))
  {
    if p in s.ports {
      var r := OnDisconnect(s, p);
      forall n | n in Registry.NameSet(r.sPorts)
        ensures Registry.Lookup(r.sPorts, n).value in r.ports && r.ports[Registry.Lookup(r.sPorts, n).value] == n
      {
        assert n != s.ports[p];
        assert Registry.Lookup(r.sPorts, n) == Registry.Lookup(s.sPorts, n);
      }
    }
  }

  /** Every event keeps `Valid`, with either change handler. */
  lemma StepKeepsValid(o: Oracles, s: State, e: Event)
    requires Valid(s)
    ensures Valid(Step(o, s, e))
    ensures Valid(CorrectedStep(o, s, e))
  {
    match e
    case Attach(name) => AttachKeepsValid(s, name);
    case Detach(p) => DetachKeepsValid(s, p);
    case ConfigChanged(b, a) =>
      OtherEventsKeepTabs(o, s, e);
      var r := OnConfigChanged(o, s, b, a);
      assert r.ports == s.ports && r.sPorts == s.sPorts && r.next >= s.next;
    case _ => OtherEventsKeepTabs(o, s, e);
  }

  ghost predicate KeepsValid(t: (State, Event) -> State) {
    forall s: State, e: Event :: Valid(s) ==> Valid(t(s, e))
  }

  lemma {:induction false} ValidFold(t: (State, Event) -> State, s: State, events: seq<Event>)
    requires KeepsValid(t) && Valid(s)
    ensures Valid(Fold(t, s, events))
    decreases |events|
  {
    if |events| > 0 {
      ValidFold(t, t(s, events[0]), events[1..]);
    }
  }

  /** From a fresh service worker, every run of events ends in a `Valid` state, with either change handler. */
  lemma ValidAlways(o: Oracles, events: seq<Event>)
    ensures Valid(Run(o, Init(), events))
    ensures Valid(CorrectedRun(o, Init(), events))
  {
    forall s: State, e: Event | Valid(s) ensures Valid(StepOf(o)(s, e)) && Valid(CorrectedStepOf(o)(s, e)) {
      StepKeepsValid(o, s, e);
    }
    InitValid();
    ValidFold(StepOf(o), Init(), events);
    ValidFold(CorrectedStepOf(o), Init(), events);
  }

  /**
    The status written when a tab attaches or detaches counts the names
    registered after the change (`activeTab: sPorts.size`).
  */
  lemma StatusCountsRegisteredNames(o: Oracles, s: State, e: Event)
    requires Valid(s) && ((e.Attach? && e.name != ReservedName) || (e.Detach? && e.port in s.ports))
    ensures var r := Step(o, s, e);
      r.log[|r.log| - 1] == StatusWrite(|Registry.NameSet(r.sPorts)|, r.connection.Some?)
  {
    var r := Step(o, s, e);
    Registry.SizeIsNameCount(r.sPorts);
  }

  /** A tab named `"GUI"` is never registered, whatever else is attached. */
  lemma ReservedNameNeverRegistered(o: Oracles, s: State, e: Event)
    requires Valid(s)
    ensures ReservedName !in Registry.NameSet(Step(o, s, e).sPorts)
  {
    StepKeepsValid(o, s, e);
  }

  /**
    The `port.name !== "GUI"` test of `onDisconnect` always passes: every
    detaching port is unregistered at the relay whenever there is a client.
  */
  lemma DetachUnregistersWithClient(s: State, p: PortId)
    requires Valid(s) && p in s.ports && s.dt.Some?
    ensures UnregisterInputTab(s.ports[p]) in OnDisconnect(s, p).log[|s.log|..]
  {
  }

  /**
    `onDisconnect` deletes by name: when a tab reconnected under the same
    name, the older port's disconnect unregisters the newer, still-live port.
  */
  lemma OlderPortDetachDropsNewer(s: State, p: PortId, q: PortId)
    requires Valid(s) && p in s.ports && p != q
    requires Registry.Lookup(s.sPorts, s.ports[p]) == Some(q)
    ensures var r := OnDisconnect(s, p);
      q in r.ports && r.ports[q] == s.ports[p] && s.ports[p] !in Registry.NameSet(r.sPorts)
  {
  }

  /** Reattaching an old name hands it to the new port and keeps its place in `sPorts.keys()`. */
  lemma ReattachTakesOverName(s: State, name: TabName)
    requires Valid(s) && name != ReservedName && name in Registry.NameSet(s.sPorts)
    ensures var r := OnConnect(s, name);
      && Registry.Lookup(r.sPorts, name) == Some(s.next)
      && Names(r) == Names(s)
  {
  }

  /**
    `requestSpecificData` for a registered name posts to the live port
    carrying that name and listens for the reply there.
  */
  lemma RequestReachesNamedTab(s: State, client: nat, id: TabName, data: string, nonce: Nonce, qos: Qos)
    requires Valid(s) && client in s.listening && id in Registry.NameSet(s.sPorts)
    ensures var r := OnRequestSpecificData(s, client, id, data, nonce, qos);
      exists p :: p in s.ports && s.ports[p] == id
        && r.log == s.log + [Post(p, CustomOut(qos, data))]
        && r.listeners == s.listeners + [Listener(p, qos, nonce)]
  {
    var p := Registry.Lookup(s.sPorts, id).value;
    assert p in s.ports && s.ports[p] == id;
  }
}
